=== FILE: README.md ===
# blogger-api identity and relationship model

This is a Dafny model of the identity and relationship core of blogger-api, a Node/Express and
Mongoose back end for a blogging platform with users, profiles, articles, favorites and comments.
It covers:

- the per-user relationship arrays `following` and `favorites`;
- password setting and checking around a key-derivation function, and the username and email
  validators;
- the article's slug generation, its pre-validate slug rule and the materialised
  `favoritesCount`;
- the JSON views with their `following` and `favorited` flags;
- `Authorization` header parsing and the required and optional token modes;
- the article and profile route handlers.

The database is a functional store: users, articles and comments in maps keyed by id. Every
route is a pure transition that returns a reply (a JSON body or a bare status code) and the store
after it. The favorite and unfavorite routes are methods because the recount they call is a loop.

Modules, in dependency order:

- `Basics`: `Option`, ids, `Ref`, replies and status codes.
- `IdLists`: Mongoose array `indexOf`, `push`-if-absent and `pull`.
- `Text`: JavaScript `split(' ')`, the ASCII lower-casing setter and the `\s` class.
- `Base36`: `toString(36)` and the int32 wrap of `| 0`.
- `UserModel`, `ArticleModel`: the two documents.
- `Storage`: the store, its invariants, lookups and single-document saves.
- `Auth`: the token middleware.
- `ProfileRoutes`, `ArticleRoutes`: the handlers.

Mongoose compares array elements by their string form. Stored arrays therefore hold canonical id
strings (`Id`). Arguments are either an ObjectId or a plain string (`Ref`) and are compared
through `Str`, so `follow(profile._id)` and `unfollow(profile.id)` act on the same entry.

## Model

| member | source | states |
|---|---|---|
| IdLists.IndexOf | models/User.js:84 | the result is -1 exactly when the id is absent, otherwise the first position holding it |
| IdLists.AnyEqual | models/User.js:97-101 | true iff some element equals the id's string form |
| IdLists.Add | models/User.js:82-89 | an id already present leaves the array unchanged; otherwise it is pushed, so the old entries stay as a prefix, membership grows by exactly that id, and a duplicate-free array stays duplicate-free |
| IdLists.Remove | models/User.js:91-94 | every copy of the id is gone, every other element keeps its multiplicity, and an absent id leaves the array unchanged (order: `RemoveConcat`) |
| IdLists.RemoveConcat | models/User.js:91-94 | pulling distributes over concatenation, so the surviving elements keep their relative order |
| IdLists.RemoveKeepsNoDup | models/User.js:91-94 | pulling an id from a duplicate-free array leaves it duplicate-free |
| IdLists.AddIdempotent | models/User.js:84-86 | adding an id twice equals adding it once |
| IdLists.RemoveAfterAdd | models/User.js:82-94 | pulling a freshly added id restores the array exactly |
| Text.Split | routes/auth.js:8 | at least one piece, no piece contains the separator, and there is one piece iff the separator does not occur |
| Text.JoinSplit | routes/auth.js:8 | joining the pieces with the separator gives back the header |
| Text.SplitJoin | routes/auth.js:8 | splitting a join of separator-free pieces gives back those pieces |
| Text.Lower | models/User.js:14-16 | the lower-casing setter keeps the length and maps each character on its own |
| Base36.ToBase36 | models/Article.js:30 | the result is a non-empty run of radix-36 digits with no leading zero unless the value is 0 |
| Base36.RoundTrip | models/Article.js:30 | reading the radix-36 text back gives the number |
| Base36.LengthBound | models/Article.js:29-30 | a number below 36^k prints in at most k digits |
| Base36.Int32 | models/Article.js:30 | the bitwise OR with 0 lies in the int32 range, is congruent to `x` modulo 2^32, and keeps values already in range |
| Base36.JsToString36 | models/Article.js:30 | the text starts with `-` iff the value is negative; the radix-36 digits after any sign read back as the value's magnitude |
| UserModel.Follow | models/User.js:82-89 | only `following` changes; a target already followed leaves the user unchanged; otherwise the target joins at the end, old entries keep their order, and a duplicate-free array stays so |
| UserModel.Unfollow | models/User.js:91-94 | only `following` changes; the target is gone and every other entry keeps its multiplicity (order kept, by `IdLists.RemoveConcat`) |
| UserModel.IsFollowing | models/User.js:97-101 | true iff the target's string form is in `following` |
| UserModel.Favorite | models/User.js:104-110 | only `favorites` changes; an article already favorited leaves the user unchanged; otherwise the article joins at the end, old entries keep their order, and a duplicate-free array stays so |
| UserModel.Unfavorite | models/User.js:113-116 | only `favorites` changes; the article is gone and every other entry keeps its multiplicity (order kept, by `IdLists.RemoveConcat`) |
| UserModel.IsFavorite | models/User.js:119-126 | true iff the article id's string form is in `favorites` |
| UserModel.FollowIdempotent | models/User.js:84-86 | following twice equals following once |
| UserModel.UnfollowAfterFollow | models/User.js:82-94 | unfollowing right after a fresh follow restores the user |
| UserModel.FavoriteIdempotent | models/User.js:106-108 | favoriting twice equals favoriting once |
| UserModel.UnfavoriteAfterFavorite | models/User.js:104-116 | unfavoriting right after a fresh favorite restores the user |
| UserModel.MembershipIgnoresRepresentation | models/User.js:97-126 | an ObjectId and its hex string test alike for following and favorites |
| UserModel.ValidPassword | models/User.js:49-52 | there is no answer iff no salt is stored (the KDF throws); a true answer means the stored hash is the derivation of the password |
| UserModel.SetPassword | models/User.js:35-45 | afterwards the password is accepted, and exactly the passwords with the same derivation under the new salt are accepted; only hash and salt change |
| UserModel.AcceptUsername | models/User.js:14 | accepted iff non-empty and all of `[a-zA-Z0-9]`; the stored value is exactly the lower-cased input |
| UserModel.MatchFrom | models/User.js:16 | the scan finds a match iff some `@` and later `.` form `\S+@\S+\.\S+` |
| UserModel.DotFrom | models/User.js:16 | the inner scan finds a closing `.` iff one exists after the `@` with no white space in between |
| UserModel.AcceptEmail | models/User.js:16 | accepted iff the lower-cased value matches the unanchored pattern; the stored value is the lower-cased one |
| UserModel.EmailPatternIgnoresCase | models/User.js:16 | lower-casing neither creates nor destroys a match |
| UserModel.ToProfileJSONFor | models/User.js:139-147 | public fields only, the placeholder image when none or empty, and `following` iff a viewer is given and follows this user |
| ArticleModel.SlugSuffixAsWrittenIsSigned | models/Article.js:30 | for draws from 2^31 up to 36^6 the written suffix starts with `-` and is not a radix-36 digit string |
| ArticleModel.SlugSuffixAsWrittenWitness | models/Article.js:30 | the draw 2^31 gives a suffix different from the intended one |
| ArticleModel.SlugSuffix | models/Article.js:28-30 | one to six radix-36 digits denoting the draw, with no leading zero |
| ArticleModel.Slugify | models/Article.js:26-31 | for a title, the slug is the lower-cased base of the title, `-`, then one to six digits denoting the draw |
| ArticleModel.PreValidate | models/Article.js:26-70 | the hook fails iff the slug is missing or empty and there is no title (the slug generator throws); otherwise a slug is present afterwards, an existing one is kept, a missing or empty one is generated from the title, and nothing else changes |
| ArticleModel.PreValidateIdempotent | models/Article.js:64-70 | after a successful validation, validating a second time never replaces the slug, whatever the draw |
| ArticleModel.NewArticleAsWrittenSeedsCount | routes/subRoutes/articles.js:18 | the document built from the body equals the one with the counter fixed at 0 except that the counter is the client's `favoritesCount` when sent; the two coincide when none (or 0) is sent |
| ArticleModel.NewArticle | routes/subRoutes/articles.js:18-20 | the counter starts at 0 with no comments, and the supplied content fields and the author are kept |
| ArticleModel.UpdateFavoriteCount | models/Article.js:34-43 | the counter becomes the number of users whose favorites hold the article id, is never negative, and nothing else changes |
| ArticleModel.RecountTwice | models/Article.js:38-39 | a second recount with no favorite changes in between reproduces the first, which is consistent |
| ArticleModel.FavoritersAfterFavorite | models/Article.js:38 | a favorite adds exactly its user to the favoriters, so a new favorite adds one to the count |
| ArticleModel.FavoritersAfterUnfavorite | models/Article.js:38 | an unfavorite removes exactly its user, so removing a held favorite takes one from the count |
| ArticleModel.FavoritersElsewhereUnchanged | models/Article.js:38 | a favorite change on one article leaves every other article's favoriters alone |
| ArticleModel.NewArticleAsWrittenInconsistent | routes/subRoutes/articles.js:18 | a body carrying `favoritesCount: 5` creates an article whose counter disagrees with its favoriters |
| ArticleModel.NewArticleConsistent | models/Article.js:13 | an article created with the default counter agrees with its (empty) favoriters |
| ArticleModel.ToJSONFor | models/Article.js:46-61 | `favorited` iff a viewer is given and favorites the article; with no viewer both flags are false; the counter and content are copied |
| Storage.FindUserByName | routes/subRoutes/profiles.js:7-19 | compared exactly, the found id holds that username, and nothing is found iff no user has it |
| Storage.FindArticleBySlug | routes/subRoutes/articles.js:74-88 | compared exactly, the found id holds that slug, and nothing is found iff no article has it |
| Storage.SaveUserKeepsValid | models/User.js:10-33 | saving a user with the same username and duplicate-free arrays keeps the unique index and every store invariant |
| Storage.SaveArticleKeepsValid | models/Article.js:9 | saving an article with its slug and author kept keeps the slug index and every store invariant |
| Auth.GetTokenFromHeader | routes/auth.js:6-14 | an extracted token never contains a space |
| Auth.TokenPresentIff | routes/auth.js:8-13 | a token is extracted iff the header starts with `Token ` (case-sensitive); otherwise the answer is "no token", not an error |
| Auth.TokenValue | routes/auth.js:8-10 | the token is the run after `Token ` up to the next space or the end; later pieces are ignored |
| Auth.IssuedHeaderRoundTrip | routes/auth.js:6-14 | the header `Token <t>` built from a space-free token gives that token back |
| Auth.OtherSchemesGiveNoToken | routes/auth.js:8 | `token …`, `Bearer …` and a bare `Token` give no token |
| Auth.NonEmptyTokenIff | routes/auth.js:6-14 | a non-empty token comes out iff the header has the scheme and a non-space right after it |
| Auth.Resolve | routes/auth.js:17-29 | with no token, required mode rejects and optional mode is anonymous; a token is verified in both modes and a failed verification is rejected; required mode is never anonymous |
| ProfileRoutes.GetProfile | routes/subRoutes/profiles.js:7-36 | 404 iff the username is unknown; `following` is true only for a requester that exists and follows the profile, so it is false without a token and for an unknown requester |
| ProfileRoutes.FollowProfile | routes/subRoutes/profiles.js:38-56 | 404 or 401 leave the store unchanged; otherwise `following` is true, only the requester's `following` changes (gaining exactly the profile), the store stays valid and counters are unaffected |
| ProfileRoutes.UnfollowProfile | routes/subRoutes/profiles.js:58-73 | 404 or 401 leave the store unchanged; otherwise `following` is false, only the requester's `following` loses the profile, the store stays valid and counters are unaffected |
| ProfileRoutes.FavoritesUntouched | routes/subRoutes/profiles.js:50 | saving a user whose favorites are unchanged leaves every article's favoriters and counter consistency alone |
| ProfileRoutes.FollowThenUnfollow | routes/subRoutes/profiles.js:38-73 | following a profile not yet followed and then unfollowing it restores the store exactly |
| ArticleRoutes.InsertArticle | routes/subRoutes/articles.js:10-29 | 401 for an unknown requester; success iff no stored article has the slug (otherwise 422, store unchanged); on success exactly the document is saved, the store stays valid, and the new counter is consistent iff it is 0 |
| ArticleRoutes.CreateArticleAsWritten | routes/subRoutes/articles.js:10-29 | as written with respect to `favoritesCount` (the slug suffix is the corrected one): 401 for an unknown requester, 500 when the body has neither slug nor title, and otherwise success iff no stored article has the chosen slug; the saved article and the reply carry the client's counter (0 when none is sent); counters stay consistent when it is 0 and become inconsistent otherwise |
| ArticleRoutes.CreateAgreesWithoutCount | routes/subRoutes/articles.js:18 | for bodies without a nonzero `favoritesCount` the route as written and the corrected route give the same reply and store |
| ArticleRoutes.CreateAsWrittenSeededInconsistent | routes/subRoutes/articles.js:18 | a successful create whose body sends `favoritesCount: 5` stores an article whose counter disagrees with its favoriters |
| ArticleRoutes.CreateArticle | routes/subRoutes/articles.js:10-29 | (corrected constructor) 401 for an unknown requester and 500 for a body with neither slug nor title; otherwise success iff no stored article has the chosen slug (the body's slug lower-cased when non-empty, else one generated from the title), 422 otherwise; failures leave the store unchanged; on success only the new article is added, by the requester, with the body's title, description, body and tags, that slug, counter 0, no comments, and not favorited; validity and counter consistency are kept |
| ArticleRoutes.BuildFilter | routes/subRoutes/articles.js:311-338 | the tag passes through; an author filter exists iff a non-empty author names a user; no id filter without a non-empty `favorited`, the empty id list for an unknown favoriter, and the favoriter's favorites otherwise |
| ArticleRoutes.ListArticles | routes/subRoutes/articles.js:294-376 | a stored article is selected iff it carries the tag, its author has the given username (an unknown author restricts nothing), and the given favoriter has it among their favorites; an unknown favoriter selects nothing; no filters select every article; the count is the size of the selection; limit defaults to 20 and offset to 0 |
| ArticleRoutes.MatchesIffWanted | routes/subRoutes/articles.js:311-338 | the built document filter accepts a stored article iff the query, read in terms of usernames and tags, wants it |
| ArticleRoutes.UnknownAuthorIgnored | routes/subRoutes/articles.js:319-330 | an author naming nobody selects the same articles as no author filter |
| ArticleRoutes.Feed | routes/subRoutes/articles.js:34-72 | 401 iff the requester is unknown; otherwise limit defaults to 10 and offset to 0, and an article is selected iff its author is followed by the requester |
| ArticleRoutes.GetArticle | routes/subRoutes/articles.js:74-106 | 404 iff no article has the slug; `favorited` iff the requester exists and favorites it |
| ArticleRoutes.ApplyPatch | routes/subRoutes/articles.js:113-124 | only title, description and body may change, each exactly when supplied |
| ArticleRoutes.UpdateArticle | routes/subRoutes/articles.js:109-138 | 404 for an unknown slug and 403 for a non-author leave the store unchanged; the author's edit saves exactly the patched article, slug kept; validity and counter consistency are kept |
| ArticleRoutes.DeleteArticle | routes/subRoutes/articles.js:141-151 | 404 and 403 leave the store unchanged; the author's delete removes exactly that article and answers 204 |
| ArticleRoutes.FavoriteChangeFacts | routes/subRoutes/articles.js:154-192 | a favorite change then a recount keeps the store valid and every consistent counter consistent, and moves the count by one exactly when membership changed |
| ArticleRoutes.FavoriteArticle | routes/subRoutes/articles.js:154-173 | 404 and 401 leave the store unchanged; otherwise the article is favorited, and the returned count is the recomputed one (one more when the favorite is new); validity and consistency are kept |
| ArticleRoutes.UnfavoriteArticle | routes/subRoutes/articles.js:176-192 | 404 and 401 leave the store unchanged; otherwise it is not favorited, and the returned count is the recomputed one (one less when it was a favorite); validity and consistency are kept |
| ArticleRoutes.RecountKeepsCounts | models/Article.js:34-43 | after one user's favorite change on one article and its recount, every counter that was consistent still is |
| ArticleRoutes.FavoriteThenUnfavorite | routes/subRoutes/articles.js:154-192 | favoriting a new article and unfavoriting it again restores the store exactly, the counter included |
| ArticleRoutes.PostComment | routes/subRoutes/articles.js:194-216 | 404 and 401 leave the store unchanged; otherwise the comment by the requester is stored, its id is appended at the end of the article's comments, and earlier comments and everything else are unchanged |
| ArticleRoutes.DeleteComment | routes/subRoutes/articles.js:255-290 | 404 for an unknown slug or comment and 403 for a non-author leave the store unchanged; the author's delete removes every copy of the id from the article's comments, keeps the others, and deletes the comment document |
| ArticleRoutes.PostThenDeleteComment | routes/subRoutes/articles.js:194-290 | a comment posted and then deleted by its author leaves the store as it was |
| ArticleRoutes.CreateThenDelete | routes/subRoutes/articles.js:10-151 | an article created and then deleted by its author through its slug leaves the store as it was |

## Left out

- Cryptography: `crypto.randomBytes`, PBKDF2 and JWT signing and verification are the parameters `salt`, `Kdf` and `Verify`.
- `generateJWT` and `toAuthJSON`: the 60-day expiry uses calendar arithmetic on `Date` and float truncation; no route in this model issues tokens.
- `Math.random` and the `slug` package: the draw is a parameter below 36^6 and the base is a function parameter on string titles (`SlugBase`); its throw on a missing title is modelled as the failure of `PreValidate`.
- Slug suffix length: the comment at models/Article.js:28-29 speaks of a six-character string, but the code does not pad. For draws below 2^31 the code prints one to six digits and the model does the same; for larger draws see the next line.
- `Slugify`, `PreValidate`, `CreateArticle`, `CreateArticleAsWritten`: these use the corrected suffix `SlugSuffix`, the plain radix-36 digits of the draw. For draws of 2^31 or more the code as written prints `-` followed by other digits (`SlugSuffixAsWritten`, first row of Findings), which these members do not promise.
- Article routes beyond the modelled handlers: `GET /articles/:article/comments` only populates, sorts by `createdAt` and renders, and timestamps are not modelled.
- `ListArticles`, `Feed`: the page itself is not modelled. Its order depends on `createdAt` and the storage's natural order. Only the selection, its count and the limit and offset values are stated, and the per-article views are not built.
- `FindUserByName`, `FindArticleBySlug`: lookups compare the route or query parameter exactly as given. `username` and `slug` are declared `lowercase` (models/User.js:14, models/Article.js:9). A Mongoose that runs setters on query filters (version 5 always, version 4 only with `runSettersOnQuery`) lower-cases the parameter first, so there `GET /profiles/Alice` finds `alice`, and the same holds for `:article`, `author` and `favorited`. The model answers 404, or applies no author filter, for such a mixed-case parameter. It follows the exact-match reading because no Mongoose version is fixed here.
- Query parsing: `limit` and `offset` arrive already parsed as naturals. `Number(...)` of arbitrary strings is not modelled.
- Lower-casing: only ASCII letters are mapped. Unicode case mapping is not modelled.
- `CreateArticle`: the uniqueness of slugs is enforced by a storage-side validator. The model answers 422 where that validator would fail, without its error body.
- `CreateArticle`, `PostComment`: the fresh document id is a parameter that no stored document uses yet. `PostThenDeleteComment` further needs it absent from the article's comments array, so that the delete removes only the appended entry.
- `CreateArticle`: it builds the document with the corrected constructor `NewArticle`, which ignores a client-sent `favoritesCount`. The code as written is `CreateArticleAsWritten`, which keeps that counter; it is the second row of Findings.
- `CreateArticle`, `CreateArticleAsWritten`: of the body's fields only slug, title, description, body, tags and `favoritesCount` are modelled. `author` is overwritten by the route. Other schema paths a body could mass-assign are not modelled: a body-sent `comments` array would be stored and later read by the comment routes (routes/subRoutes/articles.js:208, 226-231, 275), whereas the model starts every new article with no comments.
- `DeleteComment`: ids are assumed to be well-formed ObjectIds. A malformed `:comment` makes `Comment.findById` fail with a cast error (routes/subRoutes/articles.js:257), which the error handler answers with 500 (index.js:76 and index.js:90); the model answers 404 for any unknown id.
- `DeleteComment`: the comment parameter is not checked against the article. The model removes the id from the article named in the URL, as the code does, and deletes the document.
- `DeleteComment`: the deletion of the comment document is started before the article save completes. The two are sequential here.
- `UpdateArticle`: re-running the pre-validate hook on save is not shown. It leaves the existing slug alone (`PreValidate`).
- `UpdateArticle`: the body is assumed to carry an `article` object whose fields are strings or absent. Without `article` the author's request throws at routes/subRoutes/articles.js:114 inside a promise with no `catch`, so no reply is ever sent; a field sent as `null` passes the `undefined` test and is assigned. Neither case is expressible with `ArticlePatch`, whose absent field means "keep".
- Users routes, tags route, passport strategy, bootstrap and configuration are not part of this model.
- Async orchestration and races between concurrent read-modify-write handlers are not modelled; every handler is one atomic transition.
- Error bodies: a rejected token and a failed validation become status codes only.

## Findings

| source | as written | input that shows it | evidently intended | confidence | as-written member | corrected member |
|---|---|---|---|---|---|---|
| models/Article.js:30 | the bitwise OR with 0 applies ToInt32, which wraps every draw of 2^31 or more (about 1.3% of draws) to a negative number, so `toString(36)` prints a suffix with a leading `-` | draw 2147483648 gives the suffix `-` followed by the digits of 2^31 | a non-negative radix-36 suffix of the draw (for example `Math.floor`) | not executed | ArticleModel.SlugSuffixAsWrittenIsSigned | ArticleModel.SlugSuffix |
| routes/subRoutes/articles.js:18 | `new Article(req.body.article)` takes `favoritesCount` from the client, so the counter can start at any value, including a negative one, until the next recount | a body `{ "favoritesCount": 5 }` for a new article nobody has favorited | the counter starts at 0 and is only ever the number of favoriters | not executed | ArticleRoutes.CreateAsWrittenSeededInconsistent | ArticleRoutes.CreateArticle |

=== FILE: article_model.dfy ===
/** The Article document: slug generation, the pre-validate slug rule, the
    materialised `favoritesCount`, creation from a request body, and the JSON
    view with its `favorited` flag. */
module ArticleModel {
  import opened Basics
  import opened Text
  import opened Base36
  import opened UserModel

  datatype Article = Article(
    id: Id,
    slug: Option<string>,
    title: Option<string>,
    description: Option<string>,
    body: Option<string>,
    favoritesCount: int,
    tagList: seq<string>,
    comments: seq<Id>,
    author: Id)

  // ---------------------------------------------------------------- slug

  /** 36^6: `Math.random() * Math.pow(36, 6)` lies below this. */
  const SuffixRange: nat := 2176782336

  lemma SuffixRangeIsPow()
    ensures SuffixRange == Pow36(6)
  {
  }

  /** The `slug` package on a string title: a hyphenated base. Left abstract:
      a parameter of the model. It throws on a missing title, which is why the
      hook below fails for an article with neither slug nor title. */
  type SlugBase = string -> string

  /** The suffix as written: `(draw | 0).toString(36)`, where `draw` is the
      integral part of `Math.random() * 36^6`. `| 0` is ToInt32. */
  function SlugSuffixAsWritten(draw: nat): string
    requires draw < SuffixRange
  {
    JsToString36(Int32(draw))
  }

  /** Draws of 2^31 and above wrap to a negative int32, so the suffix printed
      for them carries a minus sign and is not a string of radix-36 digits. */
  lemma SlugSuffixAsWrittenIsSigned(draw: nat)
    requires Two31 <= draw < SuffixRange
    ensures SlugSuffixAsWritten(draw)[0] == '-'
    ensures !AllDigits(SlugSuffixAsWritten(draw))
    ensures SlugSuffixAsWritten(draw)[1..] == ToBase36(Two32 - draw)
  {
    assert Int32(draw) == draw - Two32;
  }

  /** The smallest such draw, as a concrete witness. */
  lemma SlugSuffixAsWrittenWitness()
    ensures SlugSuffixAsWritten(Two31) == "-" + ToBase36(Two31)
    ensures SlugSuffixAsWritten(Two31) != SlugSuffix(Two31)
  {
    SlugSuffixAsWrittenIsSigned(Two31);
  }

  /** The suffix as intended: the draw in radix 36, one to six digits, not padded. */
  function SlugSuffix(draw: nat): (r: string)
    requires draw < SuffixRange
    ensures 1 <= |r| <= 6 && AllDigits(r)
    ensures FromBase36(r) == draw
    ensures |r| > 1 ==> r[0] != '0'
  {
    RoundTrip(draw);
    SuffixRangeIsPow();
    LengthBound(draw, 6);
    ToBase36(draw)
  }

  /** `slug` is the base `b`, a hyphen, then one to six radix-36 digits denoting `draw`. */
  predicate SlugShaped(slug: string, b: string, draw: nat) {
    && |b| < |slug| && slug[..|b|] == b && slug[|b|] == '-'
    && 1 <= |slug| - |b| - 1 <= 6
    && AllDigits(slug[|b| + 1..]) && FromBase36(slug[|b| + 1..]) == draw
  }

  /** Lower-casing the whole slug only lower-cases its base: digits and `-` are left alone. */
  lemma LowerSlugParts(b: string, suffix: string)
    requires AllDigits(suffix)
    ensures Lower(b + "-" + suffix) == Lower(b) + "-" + suffix
  {
    var t := "-" + suffix;
    assert b + "-" + suffix == b + t;
    forall i | 0 <= i < |t| ensures !('A' <= t[i] <= 'Z') {
      if i > 0 {
        assert t[i] == suffix[i - 1] && IsDigit(suffix[i - 1]);
      }
    }
    LowerFixes(t);
    LowerConcat(b, t);
  }

  lemma SlugPartsShaped(b: string, suffix: string, draw: nat)
    requires 1 <= |suffix| <= 6 && AllDigits(suffix) && FromBase36(suffix) == draw
    ensures SlugShaped(b + "-" + suffix, b, draw)
  {
    var slug := b + "-" + suffix;
    assert slug[..|b|] == b;
    assert slug[|b| + 1..] == suffix;
  }

  /** `article.slugify()`, assigned through the schema's lower-casing setter:
      the lower-cased base, a hyphen, then the radix-36 suffix of the draw. */
  function Slugify(title: string, base: SlugBase, draw: nat): (slug: string)
    requires draw < SuffixRange
    ensures SlugShaped(slug, Lower(base(title)), draw)
  {
    var suffix := SlugSuffix(draw);
    LowerSlugParts(base(title), suffix);
    SlugPartsShaped(Lower(base(title)), suffix, draw);
    Lower(base(title) + "-" + suffix)
  }

  /** A slug that counts as present (`!this.slug` is false). */
  predicate HasSlug(a: Article) {
    a.slug.Some? && a.slug.value != ""
  }

  /** The pre-validate hook: generate a slug only when there is none. `None`
      when generating needs a title the article lacks: `slug(undefined)`
      throws and the save is rejected. */
  function PreValidate(a: Article, base: SlugBase, draw: nat): (r: Option<Article>)
    requires draw < SuffixRange
    ensures r.None? <==> !HasSlug(a) && a.title.None?
    ensures r.Some? ==> HasSlug(r.value) && r.value.(slug := a.slug) == a
    ensures HasSlug(a) ==> r == Some(a)
    ensures !HasSlug(a) && a.title.Some? ==> r.Some? && r.value.slug == Some(Slugify(a.title.value, base, draw))
  {
    if HasSlug(a) then Some(a)
    else if a.title.None? then None
    else Some(a.(slug := Some(Slugify(a.title.value, base, draw))))
  }

  /** Validating again never replaces the slug, whatever the next draw. */
  lemma PreValidateIdempotent(a: Article, base: SlugBase, d1: nat, d2: nat)
    requires d1 < SuffixRange && d2 < SuffixRange
    ensures PreValidate(a, base, d1).Some? ==>
              PreValidate(PreValidate(a, base, d1).value, base, d2) == PreValidate(a, base, d1)
  {
  }

  // ---------------------------------------------------------------- creation

  /** The fields a client may send in `req.body.article`. */
  datatype ArticleInput = ArticleInput(
    slug: Option<string>,
    title: Option<string>,
    description: Option<string>,
    body: Option<string>,
    tagList: seq<string>,
    favoritesCount: Option<int>)

  /** The body sends a slug that counts as present. */
  predicate SlugSent(input: ArticleInput) {
    input.slug.Some? && input.slug.value != ""
  }

  function LowerSlug(s: Option<string>): Option<string> {
    match s
    case None => None
    case Some(v) => Some(Lower(v))
  }

  /** `new Article(req.body.article)` as written, for the fields in
      `ArticleInput`: the content fields and the lower-cased slug are taken,
      and so is `favoritesCount`, the default 0 applying only when the body
      has none. Other schema fields a body might carry (`comments`, `_id`)
      are not modelled; `author` is overwritten by the route. */
  function NewArticleAsWritten(input: ArticleInput, id: Id, author: Id): (r: Article)
    ensures input.favoritesCount.None? ==> r.favoritesCount == 0
    ensures input.favoritesCount.Some? ==> r.favoritesCount == input.favoritesCount.value
  {
    Article(id, LowerSlug(input.slug), input.title, input.description, input.body,
      input.favoritesCount.GetOr(0), input.tagList, [], author)
  }

  /** The two constructors differ only in the counter: as written it is whatever
      the body sent (0 when absent), as intended it is always 0. */
  lemma NewArticleAsWrittenSeedsCount(input: ArticleInput, id: Id, author: Id)
    ensures NewArticleAsWritten(input, id, author)
            == NewArticle(input, id, author).(favoritesCount := input.favoritesCount.GetOr(0))
    ensures input.favoritesCount.GetOr(0) == 0 ==> NewArticleAsWritten(input, id, author) == NewArticle(input, id, author)
  {
  }

  /** A new article as intended: the counter starts at 0 whatever the body says. */
  function NewArticle(input: ArticleInput, id: Id, author: Id): (r: Article)
    ensures r.favoritesCount == 0 && r.comments == []
    ensures r.id == id && r.author == author
    ensures r.title == input.title && r.description == input.description && r.body == input.body
    ensures r.tagList == input.tagList
    ensures r.slug.Some? <==> input.slug.Some?
    ensures HasSlug(r) <==> SlugSent(input)
    ensures SlugSent(input) ==> r.slug == Some(Lower(input.slug.value))
  {
    NewArticleAsWritten(input.(favoritesCount := None), id, author)
  }

  // ---------------------------------------------------------------- favorites count

  /** The ground truth the counter caches: the users whose favorites hold the article id. */
  function Favoriters(users: map<Id, User>, article: Id): set<Id> {
    set u | u in users && article in users[u].favorites
  }

  /** The counter agrees with the ground truth. */
  predicate CountConsistent(a: Article, users: map<Id, User>) {
    a.favoritesCount == |Favoriters(users, a.id)|
  }

  /** `article.updateFavoriteCount()`: count the users holding the id in their
      favorites and overwrite the counter; nothing else changes. */
  method UpdateFavoriteCount(a: Article, users: map<Id, User>) returns (r: Article)
    ensures r.favoritesCount == |Favoriters(users, a.id)|
    ensures r.favoritesCount >= 0
    ensures r == a.(favoritesCount := r.favoritesCount)
  {
    var count := 0;
    var todo := users.Keys;
    ghost var seen: set<Id> := {};
    while todo != {}
      invariant todo <= users.Keys
      invariant seen == set u | u in users.Keys - todo && a.id in users[u].favorites
      invariant count == |seen|
      decreases |todo|
    {
      var u :| u in todo;
      if IsFavorite(users[u], ObjectId(a.id)) {
        assert u !in seen;
        seen := seen + {u};
        count := count + 1;
      }
      todo := todo - {u};
    }
    assert users.Keys - todo == users.Keys;
    r := a.(favoritesCount := count);
  }

  /** Recounting is idempotent: with no favorite changes in between, a second
      recount reproduces the first. */
  method RecountTwice(a: Article, users: map<Id, User>) returns (first: Article, second: Article)
    ensures second == first
    ensures CountConsistent(first, users)
  {
    first := UpdateFavoriteCount(a, users);
    second := UpdateFavoriteCount(first, users);
  }

  /** A new favorite adds exactly its user to the ground truth. */
  lemma FavoritersAfterFavorite(users: map<Id, User>, uid: Id, article: Id)
    requires uid in users
    ensures Favoriters(users[uid := Favorite(users[uid], ObjectId(article))], article)
            == Favoriters(users, article) + {uid}
    ensures article !in users[uid].favorites ==>
            |Favoriters(users[uid := Favorite(users[uid], ObjectId(article))], article)|
            == |Favoriters(users, article)| + 1
  {
  }

  /** An unfavorite removes exactly its user from the ground truth. */
  lemma FavoritersAfterUnfavorite(users: map<Id, User>, uid: Id, article: Id)
    requires uid in users
    ensures Favoriters(users[uid := Unfavorite(users[uid], ObjectId(article))], article)
            == Favoriters(users, article) - {uid}
    ensures article in users[uid].favorites ==>
            |Favoriters(users[uid := Unfavorite(users[uid], ObjectId(article))], article)|
            == |Favoriters(users, article)| - 1
  {
  }

  /** Changing one user's favorites for one article leaves every other article's ground truth alone. */
  lemma FavoritersElsewhereUnchanged(users: map<Id, User>, uid: Id, article: Id, other: Id, fav: bool)
    requires uid in users && other != article
    ensures var u' := if fav then Favorite(users[uid], ObjectId(article))
                      else Unfavorite(users[uid], ObjectId(article));
            Favoriters(users[uid := u'], other) == Favoriters(users, other)
  {
    var u := users[uid];
    if !fav {
      var r := Unfavorite(u, ObjectId(article));
      assert multiset(r.favorites)[other] == multiset(u.favorites)[other];
      assert other in r.favorites <==> other in u.favorites;
    }
  }

  /** No user's favorites mention `id`: the promise a freshly generated ObjectId keeps. */
  predicate Unfavorited(users: map<Id, User>, id: Id) {
    forall u :: u in users ==> id !in users[u].favorites
  }

  /** As written, a body carrying `favoritesCount` seeds a counter that no
      favorite backs: here 5 for an article nobody has favorited. */
  lemma NewArticleAsWrittenInconsistent(users: map<Id, User>, id: Id, author: Id)
    requires Unfavorited(users, id)
    ensures !CountConsistent(
      NewArticleAsWritten(ArticleInput(None, None, None, None, [], Some(5)), id, author), users)
  {
    assert Favoriters(users, id) == {};
  }

  /** As intended, a new article's counter agrees with the ground truth from the start. */
  lemma NewArticleConsistent(input: ArticleInput, users: map<Id, User>, id: Id, author: Id)
    requires Unfavorited(users, id)
    ensures CountConsistent(NewArticle(input, id, author), users)
  {
    assert Favoriters(users, id) == {};
  }

  // ---------------------------------------------------------------- view

  datatype ArticleView = ArticleView(
    slug: Option<string>,
    title: Option<string>,
    description: Option<string>,
    body: Option<string>,
    tagList: seq<string>,
    favorited: bool,
    favoritesCount: int,
    author: Profile)

  /** `article.toJSONFor(viewer)` with the populated author document. */
  function ToJSONFor(a: Article, viewer: Option<User>, author: User): (v: ArticleView)
    requires author.id == a.author
    ensures v.favorited <==> viewer.Some? && a.id in viewer.value.favorites
    ensures viewer.None? ==> !v.favorited && !v.author.following
    ensures v.favoritesCount == a.favoritesCount && v.slug == a.slug && v.tagList == a.tagList
    ensures v.title == a.title && v.description == a.description && v.body == a.body
    ensures v.author.username == author.username
    ensures v.author.following <==> viewer.Some? && a.author in viewer.value.following
  {
    ArticleView(a.slug, a.title, a.description, a.body, a.tagList,
      viewer.Some? && IsFavorite(viewer.value, ObjectId(a.id)),
      a.favoritesCount, ToProfileJSONFor(author, viewer))
  }
}

=== FILE: article_routes.dfy ===
/** The `/articles` routes: creation, the global list and the feed with their
    query filters and paging defaults, reading, author-only edit and delete,
    favorite and unfavorite with the recount, and comment append and
    author-only removal. Each route receives the payload its token
    middleware resolved; the `:article` and `:comment` parameters answer 404
    before the route runs. */
module ArticleRoutes {
  import opened Basics
  import opened IdLists
  import opened Text
  import opened UserModel
  import opened ArticleModel
  import opened Storage
  import opened Auth

  // ---------------------------------------------------------------- helpers

  /** The article a `:article` slug names, when there is one. */
  predicate SlugKnown(s: Store, slug: string) {
    exists k :: k in s.articles && s.articles[k].slug == Some(slug)
  }

  /** The author check of the edit and delete routes:
      `article.author._id.toString() === payload.id.toString()`. */
  predicate IsAuthor(a: Article, claims: Claims) {
    SameId(ObjectId(a.author), Text(claims.id))
  }

  // ---------------------------------------------------------------- create

  /** The body of `POST /articles` once the document is built: 401 for an
      unknown requester; a slug already taken is refused by the unique index
      (422); otherwise the document is saved as built and rendered for its
      author. */
  function InsertArticle(s: Store, claims: Claims, a: Article): (r: Step<ArticleView>)
    requires Valid(s) && a.id !in s.articles && Unfavorited(s.users, a.id)
    requires HasSlug(a) && a.author == claims.id
    ensures claims.id !in s.users ==> r == Step(Status(Unauthorized), s)
    ensures claims.id in s.users ==>
              (r.reply.Json? <==> forall k :: k in s.articles ==> s.articles[k].slug != a.slug)
    ensures r.reply.Status? ==> r.store == s
    ensures Valid(r.store)
    ensures r.reply.Json? ==>
              && r.store == SaveArticle(s, a)
              && !r.reply.body.favorited && r.reply.body.favoritesCount == a.favoritesCount
              && (CountConsistent(a, r.store.users) <==> a.favoritesCount == 0)
    ensures CountsConsistent(s) && a.favoritesCount == 0 ==> CountsConsistent(r.store)
  {
    match FindUser(s, claims.id)
    case None => Step(Status(Unauthorized), s)
    case Some(user) =>
      if exists k :: k in s.articles && s.articles[k].slug == a.slug then
        Step(Status(Unprocessable), s)
      else
        CreateKeepsInvariants(s, a);
        Step(Json(ToJSONFor(a, Some(user), user)), SaveArticle(s, a))
  }

  lemma CreateKeepsInvariants(s: Store, a: Article)
    requires Valid(s) && a.id !in s.articles && Unfavorited(s.users, a.id)
    requires HasSlug(a) && a.author in s.users
    requires forall k :: k in s.articles ==> s.articles[k].slug != a.slug
    ensures Valid(SaveArticle(s, a))
    ensures Favoriters(SaveArticle(s, a).users, a.id) == {}
    ensures CountsConsistent(s) && a.favoritesCount == 0 ==> CountsConsistent(SaveArticle(s, a))
  {
    assert Favoriters(s.users, a.id) == {};
  }

  /** `POST /articles` as written: the document takes the body's fields,
      `favoritesCount` included, and is saved with that counter. A counter
      other than 0 leaves the store's counters inconsistent. With neither slug
      nor title the hook throws and the error handler answers 500. */
  function CreateArticleAsWritten(s: Store, claims: Claims, input: ArticleInput, id: Id, base: SlugBase, draw: nat)
    : (r: Step<ArticleView>)
    requires Valid(s) && id !in s.articles && Unfavorited(s.users, id) && draw < SuffixRange
    ensures claims.id !in s.users ==> r == Step(Status(Unauthorized), s)
    ensures claims.id in s.users && !SlugSent(input) && input.title.None? ==> r == Step(Status(ServerError), s)
    ensures claims.id in s.users && SlugSent(input) ==>
              (r.reply.Json? <==> forall k :: k in s.articles ==> s.articles[k].slug != Some(Lower(input.slug.value)))
    ensures claims.id in s.users && !SlugSent(input) && input.title.Some? ==>
              (r.reply.Json? <==>
                 forall k :: k in s.articles ==> s.articles[k].slug != Some(Slugify(input.title.value, base, draw)))
    ensures r.reply.Status? ==> r.store == s
    ensures Valid(r.store)
    ensures r.reply.Json? ==>
              && id in r.store.articles
              && r.store.articles[id].favoritesCount == input.favoritesCount.GetOr(0)
              && r.reply.body.favoritesCount == input.favoritesCount.GetOr(0)
    ensures CountsConsistent(s) && input.favoritesCount.GetOr(0) == 0 ==> CountsConsistent(r.store)
    ensures r.reply.Json? && input.favoritesCount.GetOr(0) != 0 ==> !CountsConsistent(r.store)
  {
    NewArticleAsWrittenSeedsCount(input, id, claims.id);
    match PreValidate(NewArticleAsWritten(input, id, claims.id), base, draw)
    case None => Step(Status(if claims.id in s.users then ServerError else Unauthorized), s)
    case Some(a) =>
      var r := InsertArticle(s, claims, a);
      assert r.reply.Json? ==> id in r.store.articles && r.store.articles[id] == a;
      r
  }

  /** `POST /articles` (token required) with the counter fixed at 0: 401 for an
      unknown requester; 500 when the body has neither slug nor title (the
      slug generator throws); otherwise a new article by the requester with the
      body's content, its lower-cased slug or a generated one, saved unless
      that slug is taken (422). */
  function CreateArticle(s: Store, claims: Claims, input: ArticleInput, id: Id, base: SlugBase, draw: nat)
    : (r: Step<ArticleView>)
    requires Valid(s) && id !in s.articles && Unfavorited(s.users, id) && draw < SuffixRange
    ensures claims.id !in s.users ==> r == Step(Status(Unauthorized), s)
    ensures claims.id in s.users && !SlugSent(input) && input.title.None? ==> r == Step(Status(ServerError), s)
    ensures claims.id in s.users && SlugSent(input) ==>
              (r.reply.Json? <==> forall k :: k in s.articles ==> s.articles[k].slug != Some(Lower(input.slug.value)))
    ensures claims.id in s.users && !SlugSent(input) && input.title.Some? ==>
              (r.reply.Json? <==>
                 forall k :: k in s.articles ==> s.articles[k].slug != Some(Slugify(input.title.value, base, draw)))
    ensures r.reply.Status? ==> r.store == s
    ensures Valid(r.store)
    ensures CountsConsistent(s) ==> CountsConsistent(r.store)
    ensures r.reply.Json? ==>
              && claims.id in s.users && id in r.store.articles
              && r.store.articles == s.articles[id := r.store.articles[id]]
              && r.store.users == s.users && r.store.comments == s.comments
              && r.store.articles[id].author == claims.id
              && r.store.articles[id].favoritesCount == 0
              && r.store.articles[id].comments == []
              && r.store.articles[id].title == input.title
              && r.store.articles[id].description == input.description
              && r.store.articles[id].body == input.body
              && r.store.articles[id].tagList == input.tagList
              && (SlugSent(input) ==> r.store.articles[id].slug == Some(Lower(input.slug.value)))
              && (!SlugSent(input) ==>
                    input.title.Some? && r.store.articles[id].slug == Some(Slugify(input.title.value, base, draw)))
              && !r.reply.body.favorited && r.reply.body.favoritesCount == 0
  {
    match PreValidate(NewArticle(input, id, claims.id), base, draw)
    case None => Step(Status(if claims.id in s.users then ServerError else Unauthorized), s)
    case Some(a) =>
      var r := InsertArticle(s, claims, a);
      assert r.reply.Json? ==> id in r.store.articles && r.store.articles[id] == a;
      r
  }

  /** The corrected route and the route as written agree on every body that
      sends no counter (or sends 0). */
  lemma CreateAgreesWithoutCount(s: Store, claims: Claims, input: ArticleInput, id: Id, base: SlugBase, draw: nat)
    requires Valid(s) && id !in s.articles && Unfavorited(s.users, id) && draw < SuffixRange
    requires input.favoritesCount.GetOr(0) == 0
    ensures CreateArticleAsWritten(s, claims, input, id, base, draw) == CreateArticle(s, claims, input, id, base, draw)
  {
    NewArticleAsWrittenSeedsCount(input, id, claims.id);
  }

  /** A body sending `favoritesCount: 5` creates an article whose counter
      disagrees with its (empty) set of favoriters. */
  lemma CreateAsWrittenSeededInconsistent(s: Store, claims: Claims, input: ArticleInput, id: Id, base: SlugBase, draw: nat)
    requires Valid(s) && id !in s.articles && Unfavorited(s.users, id) && draw < SuffixRange
    requires input.favoritesCount == Some(5)
    requires CreateArticleAsWritten(s, claims, input, id, base, draw).reply.Json?
    ensures !CountConsistent(CreateArticleAsWritten(s, claims, input, id, base, draw).store.articles[id],
                             CreateArticleAsWritten(s, claims, input, id, base, draw).store.users)
  {
    var a := PreValidate(NewArticleAsWritten(input, id, claims.id), base, draw);
    assert a.Some? && a.value.favoritesCount == 5;
  }

  // ---------------------------------------------------------------- list and feed

  /** The query string of `GET /articles`, each field absent when not given. */
  datatype ListQuery = ListQuery(
    limit: Option<nat>,
    offset: Option<nat>,
    tag: Option<string>,
    author: Option<string>,
    favorited: Option<string>)

  /** The document filter the list route builds. */
  datatype ArticleFilter = ArticleFilter(tag: Option<string>, author: Option<Id>, ids: Option<seq<Id>>)

  /** A list reply: the matching article ids, their count, and the page bounds
      passed to `limit` and `skip`. */
  datatype ArticleList = ArticleList(matches: set<Id>, articlesCount: nat, limit: nat, offset: nat)

  const ListLimit: nat := 20
  const FeedLimit: nat := 10

  /** A truthy query value: present and not the empty string. */
  predicate Given(v: Option<string>) {
    v.Some? && v.value != ""
  }

  /** The filter `GET /articles` builds: a tag restriction when a tag is given,
      the author's id when that username exists (an unknown author adds
      nothing), and for `favorited` the favoriter's favorites, or the empty id
      list when that username does not exist. */
  function BuildFilter(s: Store, q: ListQuery): (f: ArticleFilter)
    requires Valid(s)
    ensures f.tag == q.tag
    ensures f.author.Some? <==> Given(q.author) && Known(s, q.author.value)
    ensures f.author.Some? ==> f.author.value in s.users && s.users[f.author.value].username == q.author.value
    ensures !Given(q.favorited) ==> f.ids.None?
    ensures Given(q.favorited) && !Known(s, q.favorited.value) ==> f.ids == Some([])
    ensures Given(q.favorited) && Known(s, q.favorited.value) ==>
              exists k :: k in s.users && s.users[k].username == q.favorited.value
                          && f.ids == Some(s.users[k].favorites)
  {
    var author := if Given(q.author) then FindUserByName(s.users, q.author.value) else None;
    var favoriter := if Given(q.favorited) then FindUserByName(s.users, q.favorited.value) else None;
    ArticleFilter(
      q.tag,
      author,
      if favoriter.Some? then Some(s.users[favoriter.value].favorites)
      else if Given(q.favorited) then Some([])
      else None)
  }

  /** An article passes every restriction the filter carries. */
  predicate Matches(a: Article, f: ArticleFilter) {
    && (f.tag.None? || f.tag.value in a.tagList)
    && (f.author.None? || a.author == f.author.value)
    && (f.ids.None? || a.id in f.ids.value)
  }

  /** The ids of the stored articles the filter selects. */
  function Select(s: Store, f: ArticleFilter): set<Id> {
    set k | k in s.articles && Matches(s.articles[k], f)
  }

  /** Whether the stored article `k` belongs in the reply to `q`, in the
      query's own terms: it carries the tag; its author has the given
      username (an author naming nobody restricts nothing); and some user with
      the given `favorited` username has it among their favorites. */
  predicate Wanted(s: Store, q: ListQuery, k: Id)
    requires k in s.articles && s.articles[k].author in s.users
  {
    && (q.tag.None? || q.tag.value in s.articles[k].tagList)
    && (!Given(q.author) || !Known(s, q.author.value)
        || s.users[s.articles[k].author].username == q.author.value)
    && (!Given(q.favorited)
        || exists u :: u in s.users && s.users[u].username == q.favorited.value
                       && k in s.users[u].favorites)
  }

  lemma MatchesIffWanted(s: Store, q: ListQuery, k: Id)
    requires Valid(s) && k in s.articles
    ensures Matches(s.articles[k], BuildFilter(s, q)) <==> Wanted(s, q, k)
  {
    var a := s.articles[k];
    var f := BuildFilter(s, q);
    assert a.id == k;
    if f.author.Some? {
      var id := f.author.value;
      assert a.author == id <==> s.users[a.author].username == q.author.value by {
        if s.users[a.author].username == q.author.value {
          assert s.users[a.author].username == s.users[id].username;
        }
      }
    }
    if Given(q.favorited) && Known(s, q.favorited.value) {
      var v :| v in s.users && s.users[v].username == q.favorited.value
               && f.ids == Some(s.users[v].favorites);
      if exists u :: u in s.users && s.users[u].username == q.favorited.value && k in s.users[u].favorites {
        var u :| u in s.users && s.users[u].username == q.favorited.value && k in s.users[u].favorites;
        assert s.users[u].username == s.users[v].username;
      }
    }
  }

  lemma SelectIffWanted(s: Store, q: ListQuery)
    requires Valid(s)
    ensures forall k :: k in s.articles ==> (k in Select(s, BuildFilter(s, q)) <==> Wanted(s, q, k))
  {
    forall k | k in s.articles
      ensures k in Select(s, BuildFilter(s, q)) <==> Wanted(s, q, k)
    {
      MatchesIffWanted(s, q, k);
    }
  }

  /** `GET /articles` (token optional): exactly the wanted articles, their
      count, and the page bounds with defaults 20 and 0. */
  function ListArticles(s: Store, q: ListQuery): (r: ArticleList)
    requires Valid(s)
    ensures r.matches <= s.articles.Keys
    ensures r.articlesCount == |r.matches|
    ensures r.limit == (if q.limit.Some? then q.limit.value else ListLimit)
    ensures r.offset == (if q.offset.Some? then q.offset.value else 0)
    ensures q.tag.Some? ==> forall k :: k in r.matches ==> q.tag.value in s.articles[k].tagList
    ensures Given(q.favorited) && !Known(s, q.favorited.value) ==> r.matches == {}
    ensures Given(q.favorited) && Known(s, q.favorited.value) ==>
              forall k :: k in r.matches ==>
                exists u :: u in s.users && s.users[u].username == q.favorited.value
                            && k in s.users[u].favorites
    ensures q.tag.None? && !Given(q.author) && !Given(q.favorited) ==> r.matches == s.articles.Keys
    ensures forall k :: k in s.articles ==> (k in r.matches <==> Wanted(s, q, k))
  {
    SelectIffWanted(s, q);
    var f := BuildFilter(s, q);
    var m := Select(s, f);
    ArticleList(m, |m|, q.limit.GetOr(ListLimit), q.offset.GetOr(0))
  }

  /** An author filter naming nobody is dropped: the result is the same as with no author given. */
  lemma UnknownAuthorIgnored(s: Store, q: ListQuery)
    requires Valid(s) && Given(q.author) && !Known(s, q.author.value)
    ensures ListArticles(s, q).matches == ListArticles(s, q.(author := None)).matches
  {
    assert BuildFilter(s, q) == BuildFilter(s, q.(author := None));
  }

  /** `GET /articles/feed` (token required): 401 for an unknown requester;
      otherwise the articles whose author the requester follows, with page
      defaults 10 and 0. */
  function Feed(s: Store, claims: Claims, limit: Option<nat>, offset: Option<nat>): (r: Reply<ArticleList>)
    requires Valid(s)
    ensures r.Status? <==> claims.id !in s.users
    ensures r.Status? ==> r.code == Unauthorized
    ensures r.Json? ==>
              && r.body.matches <= s.articles.Keys
              && r.body.articlesCount == |r.body.matches|
              && r.body.limit == (if limit.Some? then limit.value else FeedLimit)
              && r.body.offset == (if offset.Some? then offset.value else 0)
              && forall k :: k in s.articles ==>
                   (k in r.body.matches <==> s.articles[k].author in s.users[claims.id].following)
  {
    match FindUser(s, claims.id)
    case None => Status(Unauthorized)
    case Some(user) =>
      var m := set k | k in s.articles && IdLists.AnyEqual(user.following, s.articles[k].author);
      Json(ArticleList(m, |m|, limit.GetOr(FeedLimit), offset.GetOr(0)))
  }

  // ---------------------------------------------------------------- read

  /** `GET /articles/:article` (token optional): 404 for an unknown slug; the
      view is `favorited` only for a requester that exists and favorites it. */
  function GetArticle(s: Store, slug: string, payload: Option<Claims>): (r: Reply<ArticleView>)
    requires Valid(s)
    ensures r.Status? <==> !SlugKnown(s, slug)
    ensures r.Status? ==> r.code == NotFound
    ensures r.Json? ==>
              && r.body.slug == Some(slug)
              && (r.body.favorited <==>
                    exists k :: k in s.articles && s.articles[k].slug == Some(slug)
                                && payload.Some? && payload.value.id in s.users
                                && k in s.users[payload.value.id].favorites)
  {
    match FindArticleBySlug(s.articles, slug)
    case None => Status(NotFound)
    case Some(aid) =>
      var a := s.articles[aid];
      var viewer := if payload.Some? then FindUser(s, payload.value.id) else None;
      Json(ToJSONFor(a, viewer, s.users[a.author]))
  }

  // ---------------------------------------------------------------- edit and delete

  /** The editable fields of `req.body.article`, each absent when undefined. */
  datatype ArticlePatch = ArticlePatch(title: Option<string>, description: Option<string>, body: Option<string>)

  /** Replace exactly the fields the patch defines. */
  function ApplyPatch(a: Article, p: ArticlePatch): (r: Article)
    ensures r.(title := a.title, description := a.description, body := a.body) == a
    ensures r.title == (if p.title.Some? then p.title else a.title)
    ensures r.description == (if p.description.Some? then p.description else a.description)
    ensures r.body == (if p.body.Some? then p.body else a.body)
  {
    a.(title := if p.title.Some? then p.title else a.title,
       description := if p.description.Some? then p.description else a.description,
       body := if p.body.Some? then p.body else a.body)
  }

  /** `PUT /articles/:article` (token required): 404 for an unknown slug, 403
      unless the requester is the author (nothing changes); otherwise only the
      supplied title, description and body change. The slug is kept: the
      pre-validate hook only fills a missing one. */
  function UpdateArticle(s: Store, slug: string, claims: Claims, patch: ArticlePatch): (r: Step<ArticleView>)
    requires Valid(s)
    ensures !SlugKnown(s, slug) ==> r == Step(Status(NotFound), s)
    ensures SlugKnown(s, slug) ==>
              var aid := FindArticleBySlug(s.articles, slug).value;
              && (!IsAuthor(s.articles[aid], claims) ==> r == Step(Status(Forbidden), s))
              && (IsAuthor(s.articles[aid], claims) ==>
                    && r.reply.Json?
                    && r.store == SaveArticle(s, ApplyPatch(s.articles[aid], patch))
                    && r.store.articles[aid].slug == Some(slug))
    ensures Valid(r.store)
    ensures CountsConsistent(s) ==> CountsConsistent(r.store)
  {
    match FindArticleBySlug(s.articles, slug)
    case None => Step(Status(NotFound), s)
    case Some(aid) =>
      var a := s.articles[aid];
      if IsAuthor(a, claims) then
        var a' := ApplyPatch(a, patch);
        SaveArticleKeepsValid(s, a');
        SaveKeepsCounts(s, a');
        var viewer := FindUser(s, claims.id);
        Step(Json(ToJSONFor(a', viewer, s.users[a.author])), SaveArticle(s, a'))
      else
        Step(Status(Forbidden), s)
  }

  /** Saving an article whose counter is unchanged keeps every counter consistent. */
  lemma SaveKeepsCounts(s: Store, a: Article)
    requires Valid(s) && a.id in s.articles && a.favoritesCount == s.articles[a.id].favoritesCount
    ensures CountsConsistent(s) ==> CountsConsistent(SaveArticle(s, a))
  {
  }

  /** `DELETE /articles/:article` (token required): 404 for an unknown slug, 403
      unless the requester is the author; otherwise the article is removed
      (204) and nothing else changes. */
  function DeleteArticle(s: Store, slug: string, claims: Claims): (r: Step<()>)
    requires Valid(s)
    ensures !SlugKnown(s, slug) ==> r == Step(Status(NotFound), s)
    ensures SlugKnown(s, slug) ==>
              var aid := FindArticleBySlug(s.articles, slug).value;
              && (!IsAuthor(s.articles[aid], claims) ==> r == Step(Status(Forbidden), s))
              && (IsAuthor(s.articles[aid], claims) ==>
                    r == Step(Status(NoContent), s.(articles := s.articles - {aid})))
    ensures Valid(r.store)
    ensures CountsConsistent(s) ==> CountsConsistent(r.store)
  {
    match FindArticleBySlug(s.articles, slug)
    case None => Step(Status(NotFound), s)
    case Some(aid) =>
      if IsAuthor(s.articles[aid], claims) then
        RemoveArticleKeepsInvariants(s, aid);
        Step(Status(NoContent), s.(articles := s.articles - {aid}))
      else
        Step(Status(Forbidden), s)
  }

  /** Removing an article keeps every store invariant and every other counter. */
  lemma RemoveArticleKeepsInvariants(s: Store, aid: Id)
    requires Valid(s)
    ensures Valid(s.(articles := s.articles - {aid}))
    ensures CountsConsistent(s) ==> CountsConsistent(s.(articles := s.articles - {aid}))
  {
    var m := s.articles - {aid};
    assert forall k :: k in m ==> k in s.articles && m[k] == s.articles[k];
  }

  // ---------------------------------------------------------------- favorite

  /** `user.favorite(id)` or `user.unfavorite(id)`. */
  function FavoriteChange(u: User, aid: Id, fav: bool): User {
    if fav then Favorite(u, ObjectId(aid)) else Unfavorite(u, ObjectId(aid))
  }

  /** The store after user `uid` favorites (or unfavorites) article `aid` and
      that article's counter is recomputed and saved. */
  function AfterFavoriteChange(s: Store, uid: Id, aid: Id, fav: bool): Store
    requires uid in s.users && aid in s.articles
  {
    var users' := s.users[uid := FavoriteChange(s.users[uid], aid, fav)];
    Store(users', s.articles[aid := s.articles[aid].(favoritesCount := |Favoriters(users', aid)|)], s.comments)
  }

  /** The favoriters' count moves by one exactly when the user's membership changes. */
  lemma CountAfterChange(users: map<Id, User>, uid: Id, aid: Id, fav: bool)
    requires uid in users
    ensures var users' := users[uid := FavoriteChange(users[uid], aid, fav)];
            && (fav <==> aid in users'[uid].favorites)
            && (fav && aid !in users[uid].favorites ==>
                  |Favoriters(users', aid)| == |Favoriters(users, aid)| + 1)
            && (!fav && aid in users[uid].favorites ==>
                  |Favoriters(users', aid)| == |Favoriters(users, aid)| - 1)
            && ((aid in users[uid].favorites) == fav ==>
                  |Favoriters(users', aid)| == |Favoriters(users, aid)|)
  {
    var users' := users[uid := FavoriteChange(users[uid], aid, fav)];
    if fav {
      FavoritersAfterFavorite(users, uid, aid);
    } else {
      FavoritersAfterUnfavorite(users, uid, aid);
    }
    if (aid in users[uid].favorites) == fav {
      assert Favoriters(users', aid) == Favoriters(users, aid);
    }
  }

  /** A favorite change and recount keep every store invariant. */
  lemma ValidAfterChange(s: Store, uid: Id, aid: Id, fav: bool)
    requires Valid(s) && uid in s.users && aid in s.articles
    ensures Valid(AfterFavoriteChange(s, uid, aid, fav))
  {
    var u' := FavoriteChange(s.users[uid], aid, fav);
    var users' := s.users[uid := u'];
    SaveUserKeepsValid(s, u');
    SaveArticleKeepsValid(s.(users := users'), s.articles[aid].(favoritesCount := |Favoriters(users', aid)|));
  }

  /** What a favorite change followed by the recount leaves behind: a valid
      store, the requester's favorites updated, the recomputed counter one up
      for a new favorite and one down for a removed one, and every consistent
      counter still consistent. */
  lemma FavoriteChangeFacts(s: Store, uid: Id, aid: Id, fav: bool)
    requires Valid(s) && uid in s.users && aid in s.articles
    ensures var t := AfterFavoriteChange(s, uid, aid, fav);
            && Valid(t)
            && (CountsConsistent(s) ==> CountsConsistent(t))
            && uid in t.users && aid in t.articles
            && t.comments == s.comments
            && t.articles.Keys == s.articles.Keys
            && CountConsistent(t.articles[aid], t.users)
            && (fav <==> aid in t.users[uid].favorites)
            && (fav && aid !in s.users[uid].favorites ==>
                  t.articles[aid].favoritesCount == |Favoriters(s.users, aid)| + 1)
            && (!fav && aid in s.users[uid].favorites ==>
                  t.articles[aid].favoritesCount == |Favoriters(s.users, aid)| - 1)
            && ((aid in s.users[uid].favorites) == fav ==>
                  t.articles[aid].favoritesCount == |Favoriters(s.users, aid)|)
  {
    CountAfterChange(s.users, uid, aid, fav);
    ValidAfterChange(s, uid, aid, fav);
    RecountKeepsCounts(s, uid, aid, fav);
  }

  /** `POST /articles/:article/favorite` (token required): 404 for an unknown
      slug, 401 for an unknown requester; otherwise the requester's favorites
      gain the article, then the counter is recomputed. The reply's count is the
      recomputed one: one more than before when the favorite is new. */
  method FavoriteArticle(s: Store, slug: string, claims: Claims) returns (r: Step<ArticleView>)
    requires Valid(s)
    ensures !SlugKnown(s, slug) ==> r == Step(Status(NotFound), s)
    ensures SlugKnown(s, slug) && claims.id !in s.users ==> r == Step(Status(Unauthorized), s)
    ensures Valid(r.store)
    ensures CountsConsistent(s) ==> CountsConsistent(r.store)
    ensures SlugKnown(s, slug) && claims.id in s.users ==>
              var aid := FindArticleBySlug(s.articles, slug).value;
              && r.store == AfterFavoriteChange(s, claims.id, aid, true)
              && r.reply.Json? && r.reply.body.favorited
              && r.reply.body.favoritesCount == |Favoriters(r.store.users, aid)|
              && (aid !in s.users[claims.id].favorites ==>
                    r.reply.body.favoritesCount == |Favoriters(s.users, aid)| + 1)
              && (aid in s.users[claims.id].favorites ==>
                    r.reply.body.favoritesCount == |Favoriters(s.users, aid)|)
  {
    var found := FindArticleBySlug(s.articles, slug);
    if found.None? {
      return Step(Status(NotFound), s);
    }
    var aid := found.value;
    var requester := FindUser(s, claims.id);
    if requester.None? {
      return Step(Status(Unauthorized), s);
    }
    var user' := Favorite(requester.value, ObjectId(aid));
    var users' := s.users[claims.id := user'];
    var a' := UpdateFavoriteCount(s.articles[aid], users');
    FavoriteChangeFacts(s, claims.id, aid, true);
    r := Step(Json(ToJSONFor(a', Some(user'), s.users[a'.author])), Store(users', s.articles[aid := a'], s.comments));
  }

  /** `DELETE /articles/:article/favorite`: as favoriting, but the article leaves
      the requester's favorites; the count drops by one when it was there. */
  method UnfavoriteArticle(s: Store, slug: string, claims: Claims) returns (r: Step<ArticleView>)
    requires Valid(s)
    ensures !SlugKnown(s, slug) ==> r == Step(Status(NotFound), s)
    ensures SlugKnown(s, slug) && claims.id !in s.users ==> r == Step(Status(Unauthorized), s)
    ensures Valid(r.store)
    ensures CountsConsistent(s) ==> CountsConsistent(r.store)
    ensures SlugKnown(s, slug) && claims.id in s.users ==>
              var aid := FindArticleBySlug(s.articles, slug).value;
              && r.store == AfterFavoriteChange(s, claims.id, aid, false)
              && r.reply.Json? && !r.reply.body.favorited
              && r.reply.body.favoritesCount == |Favoriters(r.store.users, aid)|
              && (aid in s.users[claims.id].favorites ==>
                    r.reply.body.favoritesCount == |Favoriters(s.users, aid)| - 1)
              && (aid !in s.users[claims.id].favorites ==>
                    r.reply.body.favoritesCount == |Favoriters(s.users, aid)|)
  {
    var found := FindArticleBySlug(s.articles, slug);
    if found.None? {
      return Step(Status(NotFound), s);
    }
    var aid := found.value;
    var requester := FindUser(s, claims.id);
    if requester.None? {
      return Step(Status(Unauthorized), s);
    }
    var user' := Unfavorite(requester.value, ObjectId(aid));
    var users' := s.users[claims.id := user'];
    var a' := UpdateFavoriteCount(s.articles[aid], users');
    FavoriteChangeFacts(s, claims.id, aid, false);
    r := Step(Json(ToJSONFor(a', Some(user'), s.users[a'.author])), Store(users', s.articles[aid := a'], s.comments));
  }

  /** After one user's favorite change on `aid` and a recount of `aid`, every
      counter that was consistent still is. */
  lemma RecountKeepsCounts(s: Store, uid: Id, aid: Id, fav: bool)
    requires Valid(s) && uid in s.users && aid in s.articles
    ensures CountsConsistent(s) ==> CountsConsistent(AfterFavoriteChange(s, uid, aid, fav))
  {
    var users' := s.users[uid := FavoriteChange(s.users[uid], aid, fav)];
    forall k | k in s.articles && k != aid
      ensures Favoriters(users', k) == Favoriters(s.users, k)
    {
      FavoritersElsewhereUnchanged(s.users, uid, aid, k, fav);
    }
  }

  // ---------------------------------------------------------------- comments

  /** `POST /articles/:article/comments` (token required): 404 for an unknown
      slug, 401 for an unknown requester; otherwise a comment by the requester
      is stored and its id appended to the article's comments. */
  function PostComment(s: Store, slug: string, claims: Claims, body: Option<string>, cid: Id)
    : (r: Step<Comment>)
    requires Valid(s) && cid !in s.comments
    ensures !SlugKnown(s, slug) ==> r == Step(Status(NotFound), s)
    ensures SlugKnown(s, slug) && claims.id !in s.users ==> r == Step(Status(Unauthorized), s)
    ensures Valid(r.store)
    ensures CountsConsistent(s) ==> CountsConsistent(r.store)
    ensures SlugKnown(s, slug) && claims.id in s.users ==>
              var aid := FindArticleBySlug(s.articles, slug).value;
              && r.reply == Json(Comment(cid, body, claims.id, aid))
              && r.store.comments == s.comments[cid := r.reply.body]
              && r.store.users == s.users
              && aid in r.store.articles
              && r.store.articles == s.articles[aid := r.store.articles[aid]]
              && r.store.articles[aid] == s.articles[aid].(comments := r.store.articles[aid].comments)
              && |r.store.articles[aid].comments| == |s.articles[aid].comments| + 1
              && r.store.articles[aid].comments[..|s.articles[aid].comments|] == s.articles[aid].comments
              && r.store.articles[aid].comments[|s.articles[aid].comments|] == cid
  {
    match FindArticleBySlug(s.articles, slug)
    case None => Step(Status(NotFound), s)
    case Some(aid) =>
      match FindUser(s, claims.id)
      case None => Step(Status(Unauthorized), s)
      case Some(user) =>
        var c := Comment(cid, body, user.id, aid);
        var a := s.articles[aid];
        var a' := a.(comments := a.comments + [cid]);
        var s1 := s.(comments := s.comments[cid := c]);
        SaveArticleKeepsValid(s1, a');
        Step(Json(c), SaveArticle(s1, a'))
  }

  /** `DELETE /articles/:article/comments/:comment` (token required): 404 for an
      unknown slug or comment, 403 unless the requester wrote the comment
      (nothing changes); otherwise every occurrence of the comment id leaves
      this article's comments and the comment document is deleted (204). */
  function DeleteComment(s: Store, slug: string, cid: Id, claims: Claims): (r: Step<()>)
    requires Valid(s)
    ensures !SlugKnown(s, slug) ==> r == Step(Status(NotFound), s)
    ensures SlugKnown(s, slug) && cid !in s.comments ==> r == Step(Status(NotFound), s)
    ensures Valid(r.store)
    ensures CountsConsistent(s) ==> CountsConsistent(r.store)
    ensures SlugKnown(s, slug) && cid in s.comments ==>
              var aid := FindArticleBySlug(s.articles, slug).value;
              && (s.comments[cid].author != claims.id ==> r == Step(Status(Forbidden), s))
              && (s.comments[cid].author == claims.id ==>
                    && r.reply == Status(NoContent)
                    && r.store.comments == s.comments - {cid}
                    && r.store.users == s.users
                    && aid in r.store.articles
                    && r.store.articles == s.articles[aid := r.store.articles[aid]]
                    && r.store.articles[aid] == s.articles[aid].(comments := r.store.articles[aid].comments)
                    && cid !in r.store.articles[aid].comments
                    && multiset(r.store.articles[aid].comments)
                       == multiset(s.articles[aid].comments)[cid := 0])
  {
    match FindArticleBySlug(s.articles, slug)
    case None => Step(Status(NotFound), s)
    case Some(aid) =>
      if cid !in s.comments then
        Step(Status(NotFound), s)
      else
        var c := s.comments[cid];
        if SameId(ObjectId(c.author), Text(claims.id)) then
          var a := s.articles[aid];
          var a' := a.(comments := Remove(a.comments, cid));
          var s1 := s.(comments := s.comments - {cid});
          SaveArticleKeepsValid(s1, a');
          Step(Status(NoContent), SaveArticle(s1, a'))
        else
          Step(Status(Forbidden), s)
  }

  // ---------------------------------------------------------------- round trips

  /** Favoriting a new article and unfavoriting it again restores the store
      exactly, the recomputed counter included, when that counter was consistent. */
  lemma FavoriteThenUnfavorite(s: Store, uid: Id, aid: Id)
    requires uid in s.users && aid in s.articles && s.articles[aid].id == aid
    requires aid !in s.users[uid].favorites && CountConsistent(s.articles[aid], s.users)
    ensures AfterFavoriteChange(AfterFavoriteChange(s, uid, aid, true), uid, aid, false) == s
  {
    var u := s.users[uid];
    var a := s.articles[aid];
    var users1 := s.users[uid := Favorite(u, ObjectId(aid))];
    var t1 := AfterFavoriteChange(s, uid, aid, true);
    assert t1.users == users1;
    UnfavoriteAfterFavorite(u, ObjectId(aid));
    assert users1[uid := Unfavorite(users1[uid], ObjectId(aid))] == s.users;
    assert t1.articles[aid := t1.articles[aid].(favoritesCount := a.favoritesCount)] == s.articles;
  }

  lemma PostCommentStore(s: Store, slug: string, claims: Claims, body: Option<string>, cid: Id)
    requires Valid(s) && cid !in s.comments && SlugKnown(s, slug) && claims.id in s.users
    ensures var aid := FindArticleBySlug(s.articles, slug).value;
            PostComment(s, slug, claims, body, cid).store
            == SaveArticle(s.(comments := s.comments[cid := Comment(cid, body, claims.id, aid)]),
                           s.articles[aid].(comments := s.articles[aid].comments + [cid]))
  {
  }

  lemma DeleteCommentStore(s: Store, slug: string, cid: Id, claims: Claims)
    requires Valid(s) && SlugKnown(s, slug) && cid in s.comments && s.comments[cid].author == claims.id
    ensures var aid := FindArticleBySlug(s.articles, slug).value;
            DeleteComment(s, slug, cid, claims)
            == Step(Status(NoContent), SaveArticle(s.(comments := s.comments - {cid}),
                                                   s.articles[aid].(comments := Remove(s.articles[aid].comments, cid))))
  {
  }

  /** Removing an appended comment and its document undoes the append. */
  lemma AppendThenRemoveComment(s: Store, aid: Id, c: Comment)
    requires aid in s.articles && s.articles[aid].id == aid
    requires c.id !in s.comments && c.id !in s.articles[aid].comments
    ensures var a := s.articles[aid];
            var t := SaveArticle(s.(comments := s.comments[c.id := c]), a.(comments := a.comments + [c.id]));
            SaveArticle(t.(comments := t.comments - {c.id}),
                        t.articles[aid].(comments := Remove(t.articles[aid].comments, c.id))) == s
  {
    var a := s.articles[aid];
    RemoveConcat(a.comments, [c.id], c.id);
    assert Remove(a.comments + [c.id], c.id) == a.comments;
    assert s.articles[aid := a] == s.articles;
    assert s.comments[c.id := c] - {c.id} == s.comments;
  }

  /** A comment posted and then deleted by its author leaves the store as it was. */
  lemma PostThenDeleteComment(s: Store, slug: string, claims: Claims, body: Option<string>, cid: Id)
    requires Valid(s) && cid !in s.comments && SlugKnown(s, slug) && claims.id in s.users
    requires cid !in s.articles[FindArticleBySlug(s.articles, slug).value].comments
    ensures DeleteComment(PostComment(s, slug, claims, body, cid).store, slug, cid, claims)
            == Step(Status(NoContent), s)
  {
    var aid := FindArticleBySlug(s.articles, slug).value;
    var t := PostComment(s, slug, claims, body, cid).store;
    PostCommentStore(s, slug, claims, body, cid);
    assert FindArticleBySlug(t.articles, slug) == Some(aid) by {
      assert t.articles[aid].slug == Some(slug);
    }
    DeleteCommentStore(t, slug, cid, claims);
    AppendThenRemoveComment(s, aid, Comment(cid, body, claims.id, aid));
  }

  lemma CreateStore(s: Store, claims: Claims, input: ArticleInput, id: Id, base: SlugBase, draw: nat)
    requires Valid(s) && id !in s.articles && Unfavorited(s.users, id) && draw < SuffixRange
    requires CreateArticle(s, claims, input, id, base, draw).reply.Json?
    ensures PreValidate(NewArticle(input, id, claims.id), base, draw).Some?
    ensures CreateArticle(s, claims, input, id, base, draw).store
            == SaveArticle(s, PreValidate(NewArticle(input, id, claims.id), base, draw).value)
  {
  }

  lemma DeleteByAuthor(t: Store, id: Id, claims: Claims)
    requires Valid(t) && id in t.articles && t.articles[id].author == claims.id
    ensures DeleteArticle(t, t.articles[id].slug.value, claims)
            == Step(Status(NoContent), t.(articles := t.articles - {id}))
  {
    assert FindArticleBySlug(t.articles, t.articles[id].slug.value) == Some(id);
  }

  lemma SaveThenDelete(s: Store, a: Article, claims: Claims)
    requires Valid(SaveArticle(s, a)) && a.id !in s.articles && a.author == claims.id && HasSlug(a)
    ensures DeleteArticle(SaveArticle(s, a), a.slug.value, claims) == Step(Status(NoContent), s)
  {
    DeleteByAuthor(SaveArticle(s, a), a.id, claims);
    assert SaveArticle(s, a).articles - {a.id} == s.articles;
  }

  /** An article created and then deleted by its author through its slug leaves the store as it was. */
  lemma CreateThenDelete(s: Store, claims: Claims, input: ArticleInput, id: Id, base: SlugBase, draw: nat)
    requires Valid(s) && id !in s.articles && Unfavorited(s.users, id) && draw < SuffixRange
    requires CreateArticle(s, claims, input, id, base, draw).reply.Json?
    ensures var t := CreateArticle(s, claims, input, id, base, draw).store;
            DeleteArticle(t, t.articles[id].slug.value, claims) == Step(Status(NoContent), s)
  {
    CreateStore(s, claims, input, id, base, draw);
    SaveThenDelete(s, PreValidate(NewArticle(input, id, claims.id), base, draw).value, claims);
  }
}

=== FILE: auth.dfy ===
/** The token middleware: pulling the token out of the `Authorization`
    header, and the required and optional ways of resolving it into an
    identity. Signature and expiry checking is the `Verify` parameter. */
module Auth {
  import opened Basics
  import opened Text

  /** `getTokenFromHeader(req)`: the second space-separated piece when the
      first is exactly `Token`; `None` stands for both `null` and the
      `undefined` a header without a second piece yields. */
  function GetTokenFromHeader(authorization: Option<string>): (r: Option<string>)
    ensures r.Some? ==> ' ' !in r.value
  {
    match authorization
    case None => None
    case Some(h) =>
      if h == "" then None
      else
        var pieces := Split(h, ' ');
        if pieces[0] == "Token" && |pieces| >= 2 then Some(pieces[1]) else None
  }

  /** The header begins with the scheme word `Token` and a single space. */
  predicate HasTokenScheme(h: string) {
    |h| >= 6 && h[..6] == "Token "
  }

  /** The first piece of a split is the run before the first separator. */
  lemma FirstPiece(t: string)
    ensures ' ' in t ==> Split(t, ' ')[0] == t[..FirstIndex(t, ' ')]
    ensures ' ' !in t ==> Split(t, ' ')[0] == t
  {
    if ' ' in t {
      SplitAtFirst(t, FirstIndex(t, ' '), ' ');
    } else {
      SplitNoSep(t, ' ');
    }
  }

  /** A header with the scheme splits into `Token` followed by the split of the rest. */
  lemma SchemeSplit(h: string)
    requires HasTokenScheme(h)
    ensures Split(h, ' ') == ["Token"] + Split(h[6..], ' ')
  {
    assert h == "Token" + [' '] + h[6..];
    SplitPrefix("Token", h[6..], ' ');
  }

  /** A value is extracted exactly when the header starts with `Token ` (case-sensitive). */
  lemma TokenPresentIff(h: string)
    ensures GetTokenFromHeader(Some(h)).Some? <==> HasTokenScheme(h)
  {
    if HasTokenScheme(h) {
      SchemeSplit(h);
    } else if h != "" && ' ' in h {
      var k := FirstIndex(h, ' ');
      SplitAtFirst(h, k, ' ');
    } else if h != "" {
      SplitNoSep(h, ' ');
    }
  }

  /** The extracted value is the run after `Token ` up to the next space or the end;
      later pieces are ignored. */
  lemma TokenValue(h: string)
    requires HasTokenScheme(h)
    ensures GetTokenFromHeader(Some(h)).Some?
    ensures var v := GetTokenFromHeader(Some(h)).value;
            && 6 + |v| <= |h| && h[6..6 + |v|] == v
            && (6 + |v| == |h| || h[6 + |v|] == ' ')
  {
    SchemeSplit(h);
    TokenPresentIff(h);
    var t := h[6..];
    FirstPiece(t);
    if ' ' in t {
      var k := FirstIndex(t, ' ');
      assert h[6 + k] == t[k];
    }
  }

  /** The header a client builds from an issued token gives that token back. */
  lemma IssuedHeaderRoundTrip(v: string)
    requires ' ' !in v
    ensures GetTokenFromHeader(Some("Token " + v)) == Some(v)
  {
    var h := "Token " + v;
    assert h[..6] == "Token ";
    assert h[6..] == v;
    SchemeSplit(h);
    SplitNoSep(v, ' ');
  }

  /** Other scheme words, in any letter case, give no token. */
  lemma OtherSchemesGiveNoToken(v: string)
    ensures GetTokenFromHeader(Some("token " + v)) == None
    ensures GetTokenFromHeader(Some("Bearer " + v)) == None
    ensures GetTokenFromHeader(Some("Token")) == None
  {
    TokenPresentIff("token " + v);
    TokenPresentIff("Bearer " + v);
    TokenPresentIff("Token");
    assert ("token " + v)[..6] == "token ";
    assert ("Bearer " + v)[..6] == "Bearer";
  }

  /** A non-empty token is extracted exactly when the header has the scheme
      and a non-space right after it. */
  lemma NonEmptyTokenIff(authorization: Option<string>)
    ensures (GetTokenFromHeader(authorization).Some? && GetTokenFromHeader(authorization).value != "")
            <==> (authorization.Some? && HasTokenScheme(authorization.value)
                  && |authorization.value| > 6 && authorization.value[6] != ' ')
  {
    if authorization.Some? {
      TokenPresentIff(authorization.value);
      if HasTokenScheme(authorization.value) {
        TokenValue(authorization.value);
      }
    }
  }

  // ---------------------------------------------------------------- resolution

  /** The payload a valid token carries. */
  datatype Claims = Claims(id: string, username: string)

  /** Signature and expiry verification with the process secret, left abstract. */
  type Verify = string -> Option<Claims>

  /** `auth.required` (credentials required) or `auth.optional` (not required). */
  datatype Mode = Required | Optional

  datatype AuthError = CredentialsRequired | InvalidToken

  /** What the middleware leaves for the route: a payload, an anonymous
      request, or an error passed on (answered with 401). */
  datatype Identity = Authenticated(claims: Claims) | Anonymous | Rejected(error: AuthError)

  /** The header carries a non-empty token (an empty one is treated as missing). */
  predicate CarriesToken(authorization: Option<string>) {
    authorization.Some? && HasTokenScheme(authorization.value)
    && |authorization.value| > 6 && authorization.value[6] != ' '
  }

  /** The middleware: a missing token fails in required mode and is anonymous in
      optional mode; a present token is verified in both modes, and a failed
      verification is an error in both. */
  function Resolve(mode: Mode, authorization: Option<string>, verify: Verify): (r: Identity)
    ensures !CarriesToken(authorization) ==>
              r == (if mode == Required then Rejected(CredentialsRequired) else Anonymous)
    ensures CarriesToken(authorization) ==>
              GetTokenFromHeader(authorization).Some? &&
              var v := GetTokenFromHeader(authorization).value;
              && v != ""
              && (verify(v).Some? ==> r == Authenticated(verify(v).value))
              && (verify(v).None? ==> r == Rejected(InvalidToken))
    ensures mode == Required ==> !r.Anonymous?
  {
    NonEmptyTokenIff(authorization);
    var token := GetTokenFromHeader(authorization);
    if token.None? || token.value == "" then
      (if mode == Required then Rejected(CredentialsRequired) else Anonymous)
    else
      match verify(token.value)
      case Some(claims) => Authenticated(claims)
      case None => Rejected(InvalidToken)
  }
}

=== FILE: base36.dfy ===
/** JavaScript number-to-string in radix 36 (`n.toString(36)`) and the int32
    conversion that the bitwise `| 0` applies before it. */
module Base36 {

  /** A digit of radix 36 as JavaScript prints it: `0-9` then lower-case `a-z`. */
  predicate IsDigit(c: char) {
    '0' <= c <= '9' || 'a' <= c <= 'z'
  }

  predicate AllDigits(s: string) {
    forall i :: 0 <= i < |s| ==> IsDigit(s[i])
  }

  function DigitChar(d: nat): (c: char)
    requires d < 36
    ensures IsDigit(c)
  {
    if d < 10 then ('0' as int + d) as char else ('a' as int + d - 10) as char
  }

  function DigitValue(c: char): (d: nat)
    requires IsDigit(c)
    ensures d < 36
    ensures DigitChar(d) == c
  {
    if '0' <= c <= '9' then c as int - '0' as int else c as int - 'a' as int + 10
  }

  function Pow36(k: nat): (p: nat)
    ensures p >= 1
  {
    if k == 0 then 1 else 36 * Pow36(k - 1)
  }

  /** `n.toString(36)` for a non-negative integer: no sign, no padding, most significant digit first. */
  function ToBase36(n: nat): (r: string)
    ensures |r| >= 1 && AllDigits(r)
    ensures r[0] == '0' ==> n == 0
    decreases n
  {
    if n < 36 then [DigitChar(n)] else ToBase36(n / 36) + [DigitChar(n % 36)]
  }

  /** The value a string of radix-36 digits denotes. */
  function FromBase36(s: string): nat
    requires AllDigits(s)
    decreases |s|
  {
    if |s| == 0 then 0 else FromBase36(s[..|s| - 1]) * 36 + DigitValue(s[|s| - 1])
  }

  /** Printing then reading back a non-negative integer gives the integer. */
  lemma {:induction false} RoundTrip(n: nat)
    ensures FromBase36(ToBase36(n)) == n
    decreases n
  {
    var r := ToBase36(n);
    if n < 36 {
      assert r[..0] == "";
    } else {
      RoundTrip(n / 36);
      assert r[..|r| - 1] == ToBase36(n / 36);
    }
  }

  /** Below `36^k` (k >= 1) the printed form has at most k digits. */
  lemma {:induction false} LengthBound(n: nat, k: nat)
    requires k >= 1 && n < Pow36(k)
    ensures |ToBase36(n)| <= k
    decreases n
  {
    if n >= 36 {
      assert Pow36(1) == 36;
      assert k != 1;
      assert n / 36 < Pow36(k - 1);
      LengthBound(n / 36, k - 1);
    }
  }

  const Two31: int := 0x8000_0000
  const Two32: int := 0x1_0000_0000

  /** ECMAScript ToInt32, the conversion `x | 0` applies to an integral number. */
  function Int32(x: int): (r: int)
    ensures -Two31 <= r < Two31
    ensures (x - r) % Two32 == 0
    ensures 0 <= x < Two31 ==> r == x
  {
    var m := x % Two32;
    if m >= Two31 then m - Two32 else m
  }

  /** `v.toString(36)` for any integer: a leading `-` for negative values.
      The text reads back as the value: a sign exactly for negatives, then
      digits denoting the magnitude. */
  function JsToString36(v: int): (r: string)
    ensures |r| >= 1
    ensures r[0] == '-' <==> v < 0
    ensures v >= 0 ==> AllDigits(r) && FromBase36(r) == v
    ensures v < 0 ==> |r| >= 2 && AllDigits(r[1..]) && FromBase36(r[1..]) == -v
  {
    if v < 0 then
      RoundTrip(-v);
      assert ("-" + ToBase36(-v))[1..] == ToBase36(-v);
      "-" + ToBase36(-v)
    else
      RoundTrip(v);
      ToBase36(v)
  }
}

=== FILE: basics.dfy ===
/** Shared vocabulary: optional values, identifiers and the replies a route sends. */
module Basics {

  datatype Option<+T> = None | Some(value: T) {
    function GetOr(default: T): T {
      match this
      case Some(v) => v
      case None => default
    }
  }

  /** The canonical (hexadecimal string) form of a document identifier. */
  type Id = string

  /** An identifier as it reaches a comparison: either a stored ObjectId or an
      identifier already in string form (a decoded token payload, `document.id`). */
  datatype Ref = ObjectId(hex: string) | Text(s: string)

  /** `ref.toString()`: both representations print as the same canonical string. */
  function Str(r: Ref): Id {
    match r
    case ObjectId(h) => h
    case Text(s) => s
  }

  /** Identity as the routes test it: `a.toString() === b.toString()`. */
  predicate SameId(a: Ref, b: Ref) {
    Str(a) == Str(b)
  }

  /** What a route handler answers: a JSON body or a bare status code. */
  datatype Reply<+T> = Json(body: T) | Status(code: nat)

  const NoContent: nat := 204
  const Unauthorized: nat := 401
  const Forbidden: nat := 403
  const NotFound: nat := 404
  const Unprocessable: nat := 422
  const ServerError: nat := 500
}

=== FILE: id_lists.dfy ===
/** Arrays of ObjectIds (`following`, `favorites`, `comments`) and the three
    Mongoose array operations the models use on them: `indexOf`, `push`
    guarded by `indexOf === -1`, and `remove` (pull every equal element).
    Mongoose compares array elements by their string form, so the elements
    here are canonical ids. */
module IdLists {
  import opened Basics

  /** No identifier occurs twice. */
  predicate NoDup(xs: seq<Id>) {
    forall i, j :: 0 <= i < j < |xs| ==> xs[i] != xs[j]
  }

  /** `xs.indexOf(x)`: the first position holding `x`, or -1 when there is none. */
  function IndexOf(xs: seq<Id>, x: Id): (r: int)
    ensures -1 <= r < |xs|
    ensures r == -1 <==> x !in xs
    ensures 0 <= r ==> xs[r] == x && x !in xs[..r]
  {
    if |xs| == 0 then -1
    else if xs[0] == x then 0
    else
      var k := IndexOf(xs[1..], x);
      assert xs[1..][..k + 1] == xs[1..k + 2] || k == -1;
      if k == -1 then -1 else k + 1
  }

  /** `xs.some(y => y.toString() === x.toString())`. */
  function AnyEqual(xs: seq<Id>, x: Id): (b: bool)
    ensures b <==> exists i :: 0 <= i < |xs| && xs[i] == x
  {
    if |xs| == 0 then false
    else xs[0] == x || AnyEqual(xs[1..], x)
  }

  /** Add-if-absent: push `x` only when `indexOf` reports it missing. */
  function Add(xs: seq<Id>, x: Id): (r: seq<Id>)
    ensures x in r
    ensures forall y :: y in r <==> y in xs || y == x
    ensures |xs| <= |r| <= |xs| + 1 && r[..|xs|] == xs
    ensures NoDup(xs) ==> NoDup(r)
    ensures x in xs ==> r == xs
  {
    if IndexOf(xs, x) == -1 then xs + [x] else xs
  }

  /** `xs.remove(x)` (Mongoose `pull`): drop every element equal to `x`. */
  function Remove(xs: seq<Id>, x: Id): (r: seq<Id>)
    ensures multiset(r) == multiset(xs)[x := 0]
    ensures x !in r
    ensures forall y :: y != x ==> (y in r <==> y in xs)
    ensures x !in xs ==> r == xs
  {
    if |xs| == 0 then []
    else
      var rest := Remove(xs[1..], x);
      assert xs == [xs[0]] + xs[1..];
      assert multiset(xs) == multiset{xs[0]} + multiset(xs[1..]);
      if xs[0] == x then
        rest
      else
        assert xs[0] !in xs[1..] ==> xs[0] !in rest;
        assert multiset([xs[0]] + rest) == multiset{xs[0]} + multiset(rest);
        [xs[0]] + rest
  }

  /** Removal never introduces a duplicate. */
  lemma {:induction false} RemoveKeepsNoDup(xs: seq<Id>, x: Id)
    ensures NoDup(xs) ==> NoDup(Remove(xs, x))
    decreases |xs|
  {
    if |xs| > 0 && NoDup(xs) {
      assert NoDup(xs[1..]) by {
        forall i, j | 0 <= i < j < |xs[1..]| ensures xs[1..][i] != xs[1..][j] {
          assert xs[1..][i] == xs[i + 1] && xs[1..][j] == xs[j + 1];
        }
      }
      RemoveKeepsNoDup(xs[1..], x);
      var rest := Remove(xs[1..], x);
      if xs[0] != x {
        assert xs[0] !in xs[1..];
        assert xs[0] !in rest;
        var r := [xs[0]] + rest;
        forall i, j | 0 <= i < j < |r| ensures r[i] != r[j] {
          if i == 0 {
            assert r[j] == rest[j - 1];
          } else {
            assert r[i] == rest[i - 1] && r[j] == rest[j - 1];
          }
        }
      }
    }
  }

  /** Adding an id that is already there changes nothing, so a second add is a no-op. */
  lemma AddIdempotent(xs: seq<Id>, x: Id)
    ensures Add(Add(xs, x), x) == Add(xs, x)
  {
  }

  /** Removal keeps the survivors in their original order: it distributes over concatenation. */
  lemma {:induction false} RemoveConcat(a: seq<Id>, b: seq<Id>, x: Id)
    ensures Remove(a + b, x) == Remove(a, x) + Remove(b, x)
    decreases |a|
  {
    if |a| == 0 {
      assert a + b == b;
    } else {
      assert (a + b)[1..] == a[1..] + b;
      RemoveConcat(a[1..], b, x);
    }
  }

  /** Removing what was just added restores the list exactly. */
  lemma {:induction false} RemoveAfterAdd(xs: seq<Id>, x: Id)
    requires x !in xs
    ensures Remove(Add(xs, x), x) == xs
  {
    RemoveConcat(xs, [x], x);
    assert Remove([x], x) == [];
    assert xs + [] == xs;
  }
}

=== FILE: profile_routes.dfy ===
/** The `/profiles/:username` routes: the username parameter (404 when
    unknown), reading a profile with or without a requester, and following
    or unfollowing it. Each route receives the payload its token middleware
    resolved. */
module ProfileRoutes {
  import opened Basics
  import opened UserModel
  import opened ArticleModel
  import opened Storage
  import opened Auth

  /** `GET /profiles/:username` (optional token): `following` is true only for
      a requester that exists and follows the profile. */
  function GetProfile(s: Store, username: string, payload: Option<Claims>): (r: Reply<Profile>)
    requires Valid(s)
    ensures r == Status(NotFound) <==> !Known(s, username)
    ensures r.Json? ==> r.body.username == username
    ensures r.Json? ==>
              (r.body.following <==>
                 && payload.Some? && payload.value.id in s.users
                 && exists k :: k in s.users && s.users[k].username == username
                                && k in s.users[payload.value.id].following)
    ensures payload.None? ==> !(r.Json? && r.body.following)
  {
    match FindUserByName(s.users, username)
    case None => Status(NotFound)
    case Some(pid) =>
      var profile := s.users[pid];
      if payload.Some? then
        match FindUser(s, payload.value.id)
        case None => Json(ToProfileJSONFor(profile, None))
        case Some(user) => Json(ToProfileJSONFor(profile, Some(user)))
      else
        Json(ToProfileJSONFor(profile, None))
  }

  /** `POST /profiles/:username/follow`: 404 for an unknown username, 401 for an
      unknown requester (nothing changes in either), otherwise the requester
      follows the profile and only the requester's `following` changes. */
  function FollowProfile(s: Store, username: string, claims: Claims): (r: Step<Profile>)
    requires Valid(s)
    ensures !Known(s, username) ==> r == Step(Status(NotFound), s)
    ensures Known(s, username) && claims.id !in s.users ==> r == Step(Status(Unauthorized), s)
    ensures Known(s, username) && claims.id in s.users ==>
              var target := FindUserByName(s.users, username).value;
              && r.reply.Json? && r.reply.body.following && r.reply.body.username == username
              && Valid(r.store) && CountsConsistent(s) == CountsConsistent(r.store)
              && r.store.articles == s.articles && r.store.comments == s.comments
              && r.store.users.Keys == s.users.Keys
              && (forall k :: k in s.users && k != claims.id ==> r.store.users[k] == s.users[k])
              && r.store.users[claims.id] == s.users[claims.id].(following := r.store.users[claims.id].following)
              && target in r.store.users[claims.id].following
              && (forall y :: y in r.store.users[claims.id].following <==>
                               y in s.users[claims.id].following || y == target)
  {
    match FindUserByName(s.users, username)
    case None => Step(Status(NotFound), s)
    case Some(pid) =>
      match FindUser(s, claims.id)
      case None => Step(Status(Unauthorized), s)
      case Some(user) =>
        var user' := Follow(user, ObjectId(pid));
        SaveUserKeepsValid(s, user');
        FavoritesUntouched(s, user');
        Step(Json(ToProfileJSONFor(s.users[pid], Some(user'))), SaveUser(s, user'))
  }

  /** `DELETE /profiles/:username/follow`: like following, but the profile id
      (in its string form) is removed from the requester's `following`. */
  function UnfollowProfile(s: Store, username: string, claims: Claims): (r: Step<Profile>)
    requires Valid(s)
    ensures !Known(s, username) ==> r == Step(Status(NotFound), s)
    ensures Known(s, username) && claims.id !in s.users ==> r == Step(Status(Unauthorized), s)
    ensures Known(s, username) && claims.id in s.users ==>
              var target := FindUserByName(s.users, username).value;
              && r.reply.Json? && !r.reply.body.following && r.reply.body.username == username
              && Valid(r.store) && CountsConsistent(s) == CountsConsistent(r.store)
              && r.store.articles == s.articles && r.store.comments == s.comments
              && r.store.users.Keys == s.users.Keys
              && (forall k :: k in s.users && k != claims.id ==> r.store.users[k] == s.users[k])
              && r.store.users[claims.id] == s.users[claims.id].(following := r.store.users[claims.id].following)
              && multiset(r.store.users[claims.id].following)
                 == multiset(s.users[claims.id].following)[target := 0]
  {
    match FindUserByName(s.users, username)
    case None => Step(Status(NotFound), s)
    case Some(pid) =>
      match FindUser(s, claims.id)
      case None => Step(Status(Unauthorized), s)
      case Some(user) =>
        var user' := Unfollow(user, Text(pid));
        SaveUserKeepsValid(s, user');
        FavoritesUntouched(s, user');
        Step(Json(ToProfileJSONFor(s.users[pid], Some(user'))), SaveUser(s, user'))
  }

  /** Saving a user whose favorites are unchanged keeps every counter's ground truth. */
  lemma FavoritesUntouched(s: Store, u: User)
    requires u.id in s.users && u.favorites == s.users[u.id].favorites
    ensures forall a :: Favoriters(SaveUser(s, u).users, a) == Favoriters(s.users, a)
    ensures CountsConsistent(s) == CountsConsistent(SaveUser(s, u))
  {
    var s' := SaveUser(s, u);
    forall a ensures Favoriters(s'.users, a) == Favoriters(s.users, a) {
      assert forall k :: k in s.users ==> s'.users[k].favorites == s.users[k].favorites;
    }
  }

  lemma FollowStore(s: Store, username: string, claims: Claims)
    requires Valid(s) && Known(s, username) && claims.id in s.users
    ensures FollowProfile(s, username, claims).store
            == SaveUser(s, Follow(s.users[claims.id], ObjectId(FindUserByName(s.users, username).value)))
  {
  }

  lemma UnfollowStore(s: Store, username: string, claims: Claims)
    requires Valid(s) && Known(s, username) && claims.id in s.users
    ensures UnfollowProfile(s, username, claims).store
            == SaveUser(s, Unfollow(s.users[claims.id], Text(FindUserByName(s.users, username).value)))
  {
  }

  /** Saving a document's original version undoes an intermediate save. */
  lemma SaveOriginalRestores(s: Store, u: User, u': User)
    requires u.id in s.users && s.users[u.id] == u && u'.id == u.id
    ensures SaveUser(SaveUser(s, u'), u) == s
  {
    assert s.users[u.id := u'][u.id := u] == s.users;
  }

  /** Following then unfollowing a profile the requester did not follow
      restores the store exactly. */
  lemma FollowThenUnfollow(s: Store, username: string, claims: Claims)
    requires Valid(s) && Known(s, username) && claims.id in s.users
    requires FindUserByName(s.users, username).value !in s.users[claims.id].following
    ensures Valid(FollowProfile(s, username, claims).store)
    ensures UnfollowProfile(FollowProfile(s, username, claims).store, username, claims).store == s
  {
    var pid := FindUserByName(s.users, username).value;
    var user := s.users[claims.id];
    var user' := Follow(user, ObjectId(pid));
    var s1 := SaveUser(s, user');
    FollowStore(s, username, claims);
    SaveUserKeepsValid(s, user');
    assert FindUserByName(s1.users, username) == Some(pid) by {
      assert s1.users[pid].username == username;
    }
    UnfollowStore(s1, username, claims);
    UnfollowAfterFollow(user, ObjectId(pid));
    assert Unfollow(user', Text(pid)) == user;
    SaveOriginalRestores(s, user, user');
  }
}

=== FILE: storage.dfy ===
/** The document store the routes read and write: users, articles and
    comments keyed by id, the invariants the storage keeps (ids as keys,
    unique usernames and slugs, authors that exist), and the lookups the
    route parameters perform. */
module Storage {
  import opened Basics
  import opened IdLists
  import opened UserModel
  import opened ArticleModel

  datatype Comment = Comment(id: Id, body: Option<string>, author: Id, article: Id)

  datatype Store = Store(users: map<Id, User>, articles: map<Id, Article>, comments: map<Id, Comment>)

  /** What a route leaves behind: its reply and the store after it. */
  datatype Step<+T> = Step(reply: Reply<T>, store: Store)

  /** The unique index on `username`. */
  predicate UniqueUsernames(users: map<Id, User>) {
    forall a, b :: a in users && b in users && users[a].username == users[b].username ==> a == b
  }

  /** The unique index on `slug`. */
  predicate UniqueSlugs(articles: map<Id, Article>) {
    forall a, b ::
      (a in articles && b in articles && articles[a].slug.Some? && articles[a].slug == articles[b].slug)
      ==> a == b
  }

  /** What the storage guarantees of every state: documents sit under their own
      ids, unique indexes hold, relationship arrays carry no duplicates, every
      saved article has a slug and an author that exists. */
  predicate Valid(s: Store) {
    && (forall k :: k in s.users ==> s.users[k].id == k)
    && (forall k :: k in s.users ==> NoDup(s.users[k].following) && NoDup(s.users[k].favorites))
    && (forall k :: k in s.articles ==> s.articles[k].id == k)
    && (forall k :: k in s.articles ==> HasSlug(s.articles[k]) && s.articles[k].author in s.users)
    && (forall k :: k in s.comments ==> s.comments[k].id == k)
    && UniqueUsernames(s.users)
    && UniqueSlugs(s.articles)
  }

  /** Every article's counter agrees with the users' favorites. */
  predicate CountsConsistent(s: Store) {
    forall k :: k in s.articles ==> CountConsistent(s.articles[k], s.users)
  }

  /** Some stored user has this username. */
  predicate Known(s: Store, username: string) {
    exists k :: k in s.users && s.users[k].username == username
  }

  /** `User.findOne({ username })`. */
  function FindUserByName(users: map<Id, User>, name: string): (r: Option<Id>)
    requires UniqueUsernames(users)
    ensures r.Some? ==> r.value in users && users[r.value].username == name
    ensures r.None? <==> forall k :: k in users ==> users[k].username != name
  {
    if exists k :: k in users && users[k].username == name then
      var k :| k in users && users[k].username == name;
      Some(k)
    else
      None
  }

  /** `Article.findOne({ slug })`. */
  function FindArticleBySlug(articles: map<Id, Article>, slug: string): (r: Option<Id>)
    requires UniqueSlugs(articles)
    ensures r.Some? ==> r.value in articles && articles[r.value].slug == Some(slug)
    ensures r.None? <==> forall k :: k in articles ==> articles[k].slug != Some(slug)
  {
    if exists k :: k in articles && articles[k].slug == Some(slug) then
      var k :| k in articles && articles[k].slug == Some(slug);
      Some(k)
    else
      None
  }

  /** `User.findById(id)`, absent as `None`. */
  function FindUser(s: Store, id: string): (r: Option<User>)
    ensures r.Some? <==> id in s.users
    ensures r.Some? ==> r.value == s.users[id]
  {
    if id in s.users then Some(s.users[id]) else None
  }

  /** The store after one user document is saved. */
  function SaveUser(s: Store, u: User): Store {
    s.(users := s.users[u.id := u])
  }

  /** Saving one user document whose id, username and array shape are kept keeps the store valid. */
  lemma SaveUserKeepsValid(s: Store, u: User)
    requires Valid(s) && u.id in s.users
    requires u.username == s.users[u.id].username
    requires NoDup(u.following) && NoDup(u.favorites)
    ensures Valid(SaveUser(s, u))
  {
    var s' := SaveUser(s, u);
    assert s'.users.Keys == s.users.Keys;
    forall k | k in s'.users
      ensures s'.users[k].id == k && NoDup(s'.users[k].following) && NoDup(s'.users[k].favorites)
    {
      if k != u.id {
        assert s'.users[k] == s.users[k];
      }
    }
    forall a, b | a in s'.users && b in s'.users && s'.users[a].username == s'.users[b].username
      ensures a == b
    {
      assert s'.users[a].username == s.users[a].username;
      assert s'.users[b].username == s.users[b].username;
    }
  }

  /** The store after one article document is saved. */
  function SaveArticle(s: Store, a: Article): Store {
    s.(articles := s.articles[a.id := a])
  }

  /** Saving an existing article with its id, slug and author kept keeps the store valid. */
  lemma SaveArticleKeepsValid(s: Store, a: Article)
    requires Valid(s) && a.id in s.articles
    requires a.slug == s.articles[a.id].slug && a.author == s.articles[a.id].author
    ensures Valid(SaveArticle(s, a))
  {
    var s' := SaveArticle(s, a);
    forall k | k in s'.articles
      ensures s'.articles[k].id == k && HasSlug(s'.articles[k]) && s'.articles[k].author in s'.users
    {
      if k != a.id {
        assert s'.articles[k] == s.articles[k];
      }
    }
    forall x, y | x in s'.articles && y in s'.articles && s'.articles[x].slug.Some?
                  && s'.articles[x].slug == s'.articles[y].slug
      ensures x == y
    {
      assert s'.articles[x].slug == s.articles[x].slug;
      assert s'.articles[y].slug == s.articles[y].slug;
    }
  }
}

=== FILE: text.dfy ===
/** String helpers with JavaScript semantics: `String.prototype.split` on a
    single separator character, ASCII lower-casing, and the character classes
    the validators use. */
module Text {

  /** `s.split(sep)`: the maximal runs between separators, empty runs included. */
  function Split(s: string, sep: char): (r: seq<string>)
    ensures |r| >= 1
    ensures forall i :: 0 <= i < |r| ==> sep !in r[i]
    ensures |r| == 1 <==> sep !in s
  {
    if |s| == 0 then [""]
    else
      var rest := Split(s[1..], sep);
      assert s[0] != sep ==> (sep in s <==> sep in s[1..]);
      if s[0] == sep then [""] + rest
      else [[s[0]] + rest[0]] + rest[1..]
  }

  /** `ps.join(sep)`. */
  function Join(ps: seq<string>, sep: char): string
    requires |ps| >= 1
  {
    if |ps| == 1 then ps[0] else ps[0] + [sep] + Join(ps[1..], sep)
  }

  /** Splitting and re-joining gives back the original string. */
  lemma {:induction false} JoinSplit(s: string, sep: char)
    ensures Join(Split(s, sep), sep) == s
    decreases |s|
  {
    if |s| > 0 {
      JoinSplit(s[1..], sep);
      var rest := Split(s[1..], sep);
      if s[0] == sep {
        assert ([""] + rest)[1..] == rest;
        assert s == [sep] + s[1..];
      } else {
        var r := [[s[0]] + rest[0]] + rest[1..];
        if |rest| == 1 {
          assert s == [s[0]] + s[1..];
        } else {
          assert r[1..] == rest[1..];
          assert Join(rest, sep) == rest[0] + [sep] + Join(rest[1..], sep);
          assert s == [s[0]] + s[1..];
        }
      }
    }
  }

  /** A leading piece free of the separator splits off as the first piece. */
  lemma {:induction false} SplitPrefix(p: string, t: string, sep: char)
    requires sep !in p
    ensures Split(p + [sep] + t, sep) == [p] + Split(t, sep)
    decreases |p|
  {
    var s := p + [sep] + t;
    if |p| == 0 {
      assert s[1..] == t;
    } else {
      assert s[1..] == p[1..] + [sep] + t;
      SplitPrefix(p[1..], t, sep);
      assert [p[0]] + p[1..] == p;
    }
  }

  /** A string without the separator splits into itself alone. */
  lemma {:induction false} SplitNoSep(s: string, sep: char)
    requires sep !in s
    ensures Split(s, sep) == [s]
    decreases |s|
  {
    if |s| > 0 {
      SplitNoSep(s[1..], sep);
      assert [s[0]] + s[1..] == s;
    }
  }

  /** Joining separator-free pieces and splitting again recovers the pieces. */
  lemma {:induction false} SplitJoin(ps: seq<string>, sep: char)
    requires |ps| >= 1
    requires forall i :: 0 <= i < |ps| ==> sep !in ps[i]
    ensures Split(Join(ps, sep), sep) == ps
    decreases |ps|
  {
    if |ps| == 1 {
      SplitNoSep(ps[0], sep);
    } else {
      SplitJoin(ps[1..], sep);
      SplitPrefix(ps[0], Join(ps[1..], sep), sep);
      assert [ps[0]] + ps[1..] == ps;
    }
  }

  /** Splitting at the first separator: the piece before it, then the split of the rest. */
  lemma SplitAtFirst(s: string, k: nat, sep: char)
    requires k < |s| && s[k] == sep && sep !in s[..k]
    ensures Split(s, sep) == [s[..k]] + Split(s[k + 1..], sep)
  {
    assert s == s[..k] + [sep] + s[k + 1..];
    SplitPrefix(s[..k], s[k + 1..], sep);
  }

  /** `s.indexOf(c)` when `c` occurs: the first position holding it. */
  function FirstIndex(s: string, c: char): (k: nat)
    requires c in s
    ensures k < |s| && s[k] == c && c !in s[..k]
  {
    if s[0] == c then 0
    else
      var k := FirstIndex(s[1..], c);
      assert s[..k + 1] == [s[0]] + s[1..][..k];
      k + 1
  }

  /** ASCII `toLowerCase` of one character. */
  function LowerChar(c: char): (d: char)
    ensures 'A' <= c <= 'Z' ==> 'a' <= d <= 'z' && d as int == c as int + 32
    ensures !('A' <= c <= 'Z') ==> d == c
  {
    if 'A' <= c <= 'Z' then (c as int + 32) as char else c
  }

  /** ASCII `toLowerCase` of a string. */
  function Lower(s: string): (r: string)
    ensures |r| == |s|
    ensures forall i :: 0 <= i < |s| ==> r[i] == LowerChar(s[i])
  {
    if |s| == 0 then "" else [LowerChar(s[0])] + Lower(s[1..])
  }

  /** Lower-casing is applied character by character, so it distributes over concatenation. */
  lemma LowerConcat(a: string, b: string)
    ensures Lower(a + b) == Lower(a) + Lower(b)
  {
    var l, r := Lower(a + b), Lower(a) + Lower(b);
    assert |l| == |r|;
    forall i | 0 <= i < |l| ensures l[i] == r[i] {
      if i < |a| {
        assert (a + b)[i] == a[i];
      } else {
        assert (a + b)[i] == b[i - |a|];
      }
    }
  }

  /** A string without upper-case ASCII letters is its own lower-case form. */
  lemma LowerFixes(s: string)
    requires forall i :: 0 <= i < |s| ==> !('A' <= s[i] <= 'Z')
    ensures Lower(s) == s
  {
    var r := Lower(s);
    forall i | 0 <= i < |s| ensures r[i] == s[i] {
      assert r[i] == LowerChar(s[i]);
    }
  }

  /** `[a-zA-Z0-9]`. */
  predicate IsAlnum(c: char) {
    'a' <= c <= 'z' || 'A' <= c <= 'Z' || '0' <= c <= '9'
  }

  /** `\s` in a JavaScript regular expression: WhiteSpace and LineTerminator code points. */
  predicate IsSpace(c: char) {
    c == ' ' || c == '\t' || c == '\n' || c == '\r' || c == '\U{000B}' || c == '\U{000C}'
    || c == '\U{00A0}' || c == '\U{1680}' || ('\U{2000}' <= c <= '\U{200A}')
    || c == '\U{2028}' || c == '\U{2029}' || c == '\U{202F}' || c == '\U{205F}'
    || c == '\U{3000}' || c == '\U{FEFF}'
  }
}

=== FILE: user_model.dfy ===
/** The User document: its relationship arrays (`following`, `favorites`),
    its password material, the field validators of its schema, and the
    public profile it renders. */
module UserModel {
  import opened Basics
  import opened IdLists
  import opened Text

  /** The placeholder avatar a profile shows when the user has none. */
  const DefaultImage: string :=
    "https://yt3.ggpht.com/a-/AJLlDp3pDQMFfJwDmdDpTWMfrFhDUmrpY-Xy6sagUw=s900-mo-c-c0xffffffff-rj-k-no"

  datatype User = User(
    id: Id,
    username: string,
    email: string,
    bio: Option<string>,
    image: Option<string>,
    following: seq<Id>,
    favorites: seq<Id>,
    hash: Option<string>,
    salt: Option<string>)

  /** The password key derivation (PBKDF2, SHA-512, 10000 rounds, 512 bytes,
      hex-encoded) as a deterministic function of (password, salt). */
  type Kdf = (string, string) -> string

  // ---------------------------------------------------------------- following

  /** `user.follow(id)`: add the target once; every other field is untouched. */
  function Follow(u: User, target: Ref): (r: User)
    ensures r == u.(following := r.following)
    ensures Str(target) in r.following
    ensures forall y :: y in r.following <==> y in u.following || y == Str(target)
    ensures |u.following| <= |r.following| && r.following[..|u.following|] == u.following
    ensures NoDup(u.following) ==> NoDup(r.following)
    ensures Str(target) in u.following ==> r == u
  {
    u.(following := Add(u.following, Str(target)))
  }

  /** `user.unfollow(id)`: drop every entry equal to the target, keep the rest. */
  function Unfollow(u: User, target: Ref): (r: User)
    ensures r == u.(following := r.following)
    ensures Str(target) !in r.following
    ensures multiset(r.following) == multiset(u.following)[Str(target) := 0]
    ensures NoDup(u.following) ==> NoDup(r.following)
  {
    RemoveKeepsNoDup(u.following, Str(target));
    u.(following := Remove(u.following, Str(target)))
  }

  /** `user.isFollowing(id)`: some entry has the target's string form. */
  function IsFollowing(u: User, target: Ref): (b: bool)
    ensures b <==> Str(target) in u.following
  {
    AnyEqual(u.following, Str(target))
  }

  // ---------------------------------------------------------------- favorites

  /** `user.favorite(id)`: add the article id once; `following` and the rest stay. */
  function Favorite(u: User, article: Ref): (r: User)
    ensures r == u.(favorites := r.favorites)
    ensures Str(article) in r.favorites
    ensures forall y :: y in r.favorites <==> y in u.favorites || y == Str(article)
    ensures |u.favorites| <= |r.favorites| && r.favorites[..|u.favorites|] == u.favorites
    ensures NoDup(u.favorites) ==> NoDup(r.favorites)
    ensures Str(article) in u.favorites ==> r == u
  {
    u.(favorites := Add(u.favorites, Str(article)))
  }

  /** `user.unfavorite(id)`: drop every entry equal to the article id. */
  function Unfavorite(u: User, article: Ref): (r: User)
    ensures r == u.(favorites := r.favorites)
    ensures Str(article) !in r.favorites
    ensures multiset(r.favorites) == multiset(u.favorites)[Str(article) := 0]
    ensures NoDup(u.favorites) ==> NoDup(r.favorites)
  {
    RemoveKeepsNoDup(u.favorites, Str(article));
    u.(favorites := Remove(u.favorites, Str(article)))
  }

  /** `user.isFavorite(id)`: some entry has the article id's string form. */
  function IsFavorite(u: User, article: Ref): (b: bool)
    ensures b <==> Str(article) in u.favorites
  {
    AnyEqual(u.favorites, Str(article))
  }

  /** Following twice is following once. */
  lemma FollowIdempotent(u: User, target: Ref)
    ensures Follow(Follow(u, target), target) == Follow(u, target)
  {
    AddIdempotent(u.following, Str(target));
  }

  /** Unfollowing right after a fresh follow restores the list exactly. */
  lemma UnfollowAfterFollow(u: User, target: Ref)
    requires !IsFollowing(u, target)
    ensures Unfollow(Follow(u, target), target) == u
  {
    RemoveAfterAdd(u.following, Str(target));
  }

  /** Favoriting twice is favoriting once. */
  lemma FavoriteIdempotent(u: User, article: Ref)
    ensures Favorite(Favorite(u, article), article) == Favorite(u, article)
  {
    AddIdempotent(u.favorites, Str(article));
  }

  /** Unfavoriting right after a fresh favorite restores the list exactly. */
  lemma UnfavoriteAfterFavorite(u: User, article: Ref)
    requires !IsFavorite(u, article)
    ensures Unfavorite(Favorite(u, article), article) == u
  {
    RemoveAfterAdd(u.favorites, Str(article));
  }

  /** The membership tests agree for the two representations of one id. */
  lemma MembershipIgnoresRepresentation(u: User, hex: string)
    ensures IsFollowing(u, ObjectId(hex)) == IsFollowing(u, Text(hex))
    ensures IsFavorite(u, ObjectId(hex)) == IsFavorite(u, Text(hex))
  {
  }

  // ---------------------------------------------------------------- password

  /** `user.validPassword(p)`: re-derive with the stored salt and compare with
      the stored hash. `None` stands for the exception the key derivation
      raises when there is no salt; a missing hash simply compares unequal. */
  function ValidPassword(u: User, password: string, kdf: Kdf): (r: Option<bool>)
    ensures r.None? <==> u.salt.None?
    ensures r == Some(true) ==> u.hash.Some? && u.hash.value == kdf(password, u.salt.value)
  {
    match u.salt
    case None => None
    case Some(salt) => Some(u.hash == Some(kdf(password, salt)))
  }

  /** `user.setPassword(p)` with the freshly drawn salt as a parameter: afterwards
      exactly the passwords deriving the same hash under that salt are accepted. */
  function SetPassword(u: User, password: string, salt: string, kdf: Kdf): (r: User)
    ensures r.salt == Some(salt)
    ensures ValidPassword(r, password, kdf) == Some(true)
    ensures forall p :: ValidPassword(r, p, kdf) == Some(kdf(p, salt) == kdf(password, salt))
    ensures r.(hash := u.hash, salt := u.salt) == u
  {
    u.(salt := Some(salt), hash := Some(kdf(password, salt)))
  }

  // ---------------------------------------------------------------- validators

  /** Every character is in `[a-zA-Z0-9]`. */
  function AllAlnum(s: string): (b: bool)
    ensures b <==> forall i :: 0 <= i < |s| ==> IsAlnum(s[i])
  {
    if |s| == 0 then true else IsAlnum(s[0]) && AllAlnum(s[1..])
  }

  /** The username path: lower-cased on assignment, then `required` and
      `/^[a-zA-Z0-9]+$/`. The stored value is returned when it is accepted. */
  function AcceptUsername(raw: string): (r: Option<string>)
    ensures r.Some? <==> |raw| > 0 && forall i :: 0 <= i < |raw| ==> IsAlnum(raw[i])
    ensures r.Some? ==> r.value == Lower(raw)
    ensures r.Some? ==> |r.value| == |raw|
    ensures r.Some? ==> forall i :: 0 <= i < |r.value| ==> 'a' <= r.value[i] <= 'z' || '0' <= r.value[i] <= '9'
  {
    var stored := Lower(raw);
    assert forall i :: 0 <= i < |raw| ==> (IsAlnum(raw[i]) <==> IsAlnum(stored[i]));
    if |stored| > 0 && AllAlnum(stored) then Some(stored) else None
  }

  /** One way `/\S+@\S+\.\S+/` matches: an `@` at `at` and a `.` at `dot`, with
      a non-space before the `@`, non-spaces all the way from it to the `.`,
      and a non-space after the `.`. */
  predicate EmailShape(s: string, at: int, dot: int) {
    && 0 < at && at + 1 < dot && dot + 1 < |s|
    && s[at] == '@' && s[dot] == '.'
    && !IsSpace(s[at - 1]) && !IsSpace(s[dot + 1])
    && forall k :: at < k < dot ==> !IsSpace(s[k])
  }

  /** The unanchored email pattern matches somewhere in `s`. */
  ghost predicate MatchesEmailPattern(s: string) {
    exists at, dot :: EmailShape(s, at, dot)
  }

  /** Scan forward from `j` for a `.` that closes a match begun by the `@` at `at`. */
  function DotFrom(s: string, at: int, j: int): (b: bool)
    requires 0 < at < j <= |s| && s[at] == '@' && !IsSpace(s[at - 1])
    requires forall k :: at < k < j ==> !IsSpace(s[k])
    ensures b <==> exists dot :: j <= dot && EmailShape(s, at, dot)
    decreases |s| - j
  {
    if j + 1 >= |s| then false
    else if IsSpace(s[j]) then false
    else if s[j] == '.' && at + 1 < j && !IsSpace(s[j + 1]) then
      assert EmailShape(s, at, j);
      true
    else
      DotFrom(s, at, j + 1)
  }

  /** Scan for an `@` at or after `i` that starts a match. */
  function MatchFrom(s: string, i: nat): (b: bool)
    ensures b <==> exists at, dot :: i <= at && EmailShape(s, at, dot)
    decreases |s| - i
  {
    if i >= |s| then false
    else if 0 < i && s[i] == '@' && !IsSpace(s[i - 1]) && DotFrom(s, i, i + 1) then true
    else MatchFrom(s, i + 1)
  }

  /** The email path: lower-cased on assignment, then `/\S+@\S+\.\S+/`
      (which also rejects the empty string that `required` refuses). */
  function AcceptEmail(raw: string): (r: Option<string>)
    ensures r.Some? <==> MatchesEmailPattern(Lower(raw))
    ensures r.Some? ==> r.value == Lower(raw)
  {
    var stored := Lower(raw);
    if MatchFrom(stored, 0) then Some(stored) else None
  }

  /** Lower-casing never creates or destroys a match: it leaves white space, `@` and `.` alone. */
  lemma EmailPatternIgnoresCase(s: string)
    ensures MatchesEmailPattern(Lower(s)) <==> MatchesEmailPattern(s)
  {
    var l := Lower(s);
    if MatchesEmailPattern(s) {
      var at, dot :| EmailShape(s, at, dot);
      ShapeIgnoresCase(s, at, dot);
    }
    if MatchesEmailPattern(l) {
      var at, dot :| EmailShape(l, at, dot);
      ShapeIgnoresCase(s, at, dot);
    }
  }

  lemma ShapeIgnoresCase(s: string, at: int, dot: int)
    ensures EmailShape(Lower(s), at, dot) <==> EmailShape(s, at, dot)
  {
    var l := Lower(s);
    if 0 < at && at + 1 < dot && dot + 1 < |s| {
      forall k | 0 <= k < |s|
        ensures IsSpace(l[k]) <==> IsSpace(s[k])
        ensures l[k] == '@' <==> s[k] == '@'
        ensures l[k] == '.' <==> s[k] == '.'
      {
        LowerCharKeepsPunctuation(s[k]);
      }
    }
  }

  /** Lower-casing one character never touches white space, `@` or `.`. */
  lemma LowerCharKeepsPunctuation(c: char)
    ensures IsSpace(LowerChar(c)) <==> IsSpace(c)
    ensures LowerChar(c) == '@' <==> c == '@'
    ensures LowerChar(c) == '.' <==> c == '.'
  {
  }

  // ---------------------------------------------------------------- profile

  datatype Profile = Profile(username: string, bio: Option<string>, image: string, following: bool)

  /** `user.toProfileJSONFor(viewer)`: public fields, the placeholder image when
      none is set, and whether the viewer (if any) follows this user. */
  function ToProfileJSONFor(u: User, viewer: Option<User>): (p: Profile)
    ensures p.username == u.username && p.bio == u.bio
    ensures p.image != ""
    ensures u.image.Some? && u.image.value != "" ==> p.image == u.image.value
    ensures !(u.image.Some? && u.image.value != "") ==> p.image == DefaultImage
    ensures p.following <==> viewer.Some? && u.id in viewer.value.following
  {
    Profile(
      u.username,
      u.bio,
      if u.image.Some? && u.image.value != "" then u.image.value else DefaultImage,
      viewer.Some? && IsFollowing(viewer.value, ObjectId(u.id)))
  }
}
